=== FILE: README.md ===
# Woningnet bot: listing pipeline and reaction bookkeeping in Dafny

This project models the core of a bot that watches a housing portal. The bot
fetches the portal's listing feed and normalises each record into one
canonical listing. It keeps the listings that meet the tenant's criteria. It
then drives each new listing through its detail page: it announces the
listing, tries to react to it, and tracks the ids it has handled in two sets,
`gevonden` (found/settled) and `gereageerd` (reacted to).

Modules, one concept each:

- `Results`: `Option` and `Result`. A Python exception becomes `Err`.
- `Strings`: the string built-ins the code relies on. These are `strip` with
  Python's whitespace set, `split(sep)`, `split(sep)[-1]` (the text after the
  last separator), `str(int)`, and `int(str)`/`float(str)` on positional
  notation.
- `Py`: decoded JSON values (`Val`) and the coercions `unify_item` applies to
  them. These are truthiness, `or`, `dict.get` with a default, `(v or {})`,
  `str`, `float` and `int` (which truncates toward zero).
- `Housing` (`housing.py`): `unify_item` in both branches, the dict-only list
  comprehension, and `fetch_aanbod` after the POST.
- `Csrf` (`housing.py`): percent-decoding of the `nr2Users` cookie and
  extraction of the `crf=` token.
- `Eligibility` (`housing.py`): `filter_geschikt`.
- `Reaction` (`bot.py`): the bounded scroll search and the click with one
  retry.
- `Dedup` (`bot.py`): `process_woning` as a pure transition on the two id
  sets. It emits a list of effects: announce, confirm, or save a screenshot.
- `Cycle` (`bot.py`): one pass of the main loop. It fetches, filters and
  folds `process_woning`; an exception from the fetch leads to re-login.

The outside world is turned into parameters:

- the portal's answer to the feed request, as a function of the `x-csrftoken`
  header;
- what the driver observes on each detail page: whether the withdraw button
  shows, what each scroll lookup sees, whether the final wait succeeds, and
  how each click ends;
- the cookies the session supplies.

Cluster prices, areas and room counts are `Scalar | Range` measures. The
filter reads a measure as its `(min, max)` pair, which is what the source's
`"min-max"` string and its re-parse stand for. A scalar reads as `min == max`.

Three behaviours of the code worth knowing:

- A unit without `EntiteitId` and without `Id` gets the empty id. It is not
  dropped from the feed. `process_woning` then skips it, because an empty pid
  is falsy.
- A failed reaction is not retried in a later cycle. The id already sits in
  `gevonden` by then, and `process_woning` returns at once for any id in
  `gevonden`. `Dedup.FailedReactionNotRetried` states this.
- Exceptions raised after the POST propagate out of `fetch_aanbod`. This
  covers a body that is not JSON, a non-dict on the `data.PublicatieLijst`
  path, and a record whose coercion raises. The main loop catches them and
  logs in again.

## Model

| member | source | states |
|---|---|---|
| Strings.Strip | housing.py:61 | `str.strip()`: the result is the input with leading and trailing whitespace removed, and it neither starts nor ends with whitespace |
| Strings.StripExact | housing.py:61 | `strip` keeps exactly a slice that has only whitespace outside it and is empty or starts and ends with a non-space character |
| Strings.StripLeadingSpace | housing.py:61 | a whitespace character in front makes no difference to `strip` |
| Strings.StripIdempotent | housing.py:61 | stripping a stripped string changes nothing |
| Strings.Split | housing.py:83 | `str.split(sep)`: at least one part, the parts joined with `sep` give back the input, and no part contains `sep` |
| Strings.AfterLast | housing.py:83 | `split(sep)[-1]`: the input ends with `sep` followed by the result, and the result contains no `sep`; without `sep` the result is the whole input |
| Strings.IntToStringRoundTrip | housing.py:32 | `int(str(n)) == n` for every integer |
| Strings.IntToStringDecimalRoundTrip | housing.py:33 | `float(str(n))` reads back as the number `n` for every integer, with floats read as exact reals |
| Strings.NatToStringRoundTrip | housing.py:57 | the decimal digits of a natural number read back as that number |
| Py.DictOr | housing.py:29 | `(v or {})` used as a dict: a falsy value is the empty dict, a dict is itself, and any other truthy value raises `AttributeError` |
| Py.Truncate | housing.py:60 | `int()` on a float truncates toward zero: the result is within 1 of the input, on the side of 0 |
| Py.FloatOr0 | housing.py:33 | `float(v or 0)`: a missing or falsy field reads as 0, any other value as `float(v)` |
| Py.ToFloat | housing.py:58 | `float(v)`: numbers keep their value, booleans read as 1.0 or 0.0, text succeeds exactly when it parses as a decimal and otherwise raises `ValueError`, and null, dicts and lists raise `TypeError` |
| Py.ToInt | housing.py:60 | `int(v)`: integers keep their value, floats truncate toward zero, booleans read as 1 or 0, text succeeds exactly when it parses as an integer (to that integer) and otherwise raises `ValueError`, and null, dicts and lists raise `TypeError` |
| Py.IntOr0 | housing.py:37 | `int(v or 0)`: a missing or falsy field reads as 0, any other value as `int(v)` |
| Housing.Collapse | housing.py:40-42 | a min/max pair becomes a measure that stands for exactly that pair, and it is a scalar exactly when the two are equal |
| Housing.UnifyCluster | housing.py:29-54 | a normalised cluster has the cluster id, is of cluster type, and carries the raw record, the photo and the detail link built from its id |
| Housing.UnifyClusterFigures | housing.py:33-42 | a cluster normalises exactly when its six min/max fields coerce; each measure's bounds are those fields (0 where missing) and it is a scalar exactly when they agree; the address is `Naam` |
| Housing.JoinAddress | housing.py:61 | the unit address neither starts nor ends with whitespace |
| Housing.JoinAddressShape | housing.py:61 | with street and number both non-blank, the address is the stripped street, one space, and the number with only its trailing whitespace cut (`" 12"` gives two spaces); with a blank number it is the stripped street; with a blank street it is the stripped number |
| Housing.StripJoinedBoth | housing.py:61 | stripping street, space and a non-blank number cuts only the number's trailing whitespace |
| Housing.StripJoinedBlankNumber | housing.py:61 | stripping street, space and a blank number leaves the street |
| Housing.UnifyUnit | housing.py:55-73 | a unit record normalises exactly when `Eenheid` and `Adres` read as dicts, its rent, area and rooms coerce, and its street name is text (a numeric string such as `"1000"` coerces); a non-dict truthy `Eenheid` raises `AttributeError`; a normalised unit is of unit type and carries raw record, photo and detail link |
| Housing.UnifyUnitFigures | housing.py:58-60 | a normalised unit's rent, area and rooms are its `NettoHuur`, `WoonVertrekkenTotOpp` and `AantalKamers` coerced, 0 where missing or falsy |
| Housing.UnifyUnitFields | housing.py:57-61 | a normalised unit's id is `UnitId` of its record, and its address joins the street name and house number |
| Housing.UnifyItem | housing.py:27-73 | a non-dict truthy `Cluster` raises; the result is a cluster exactly when the cluster `PublicatieId` is truthy and does not print as `0`, and then its id is that id printed (non-empty, not `0`); raw record, photo and detail link are carried over |
| Housing.UnifyWellTyped | housing.py:27-73 | a record whose sub-records are dicts, whose numeric fields are numbers or null and whose street is text always normalises |
| Housing.DictElements | housing.py:99 | `isinstance(it, dict)`: every dict element of the raw list appears, nothing else does, and a one-element list gives its dict or nothing |
| Housing.DictElementsAppend | housing.py:99 | the dict elements of a concatenation are those of each part, in order; with the one-element case this fixes the result for every list |
| Housing.CollectAll | housing.py:99 | mapping a raising function over a list: success exactly when every element succeeds, one result per element in order, otherwise the exception of the first element that raises |
| Housing.UnifyAll | housing.py:99 | the comprehension yields one listing per dict element, each the `unify_item` of that dict; it succeeds exactly when `unify_item` succeeds on every dict element, and otherwise raises the exception of some dict element |
| Housing.UnifyAllAppend | housing.py:99 | the comprehension over a concatenation raises the first part's exception, else the second part's, else joins the two results |
| Housing.ListElements | housing.py:98-99 | iterating the list value: a list gives its elements; a string or dict gives no dict elements; a number, bool or null raises `TypeError` |
| Housing.FetchAanbod | housing.py:91-99 | a failed POST yields no listings; a body that is not JSON raises, and so does a top-level JSON value that is not a dict; along `data.PublicatieLijst.List` a missing key yields no listings, a present non-dict `data` or `PublicatieLijst` raises `AttributeError`, a null, boolean or number in place of the list raises `TypeError`, a string or dict there yields no listings, and a list yields the comprehension over it, whatever the other keys; every listing's detail link is built from its id |
| Csrf.Unquote | housing.py:82 | percent-decoding never lengthens the text and leaves text without `%` unchanged |
| Csrf.UnquoteEscape | housing.py:82 | a `%XY` escape of an ASCII character decodes to that character, whatever text follows |
| Csrf.UnquotePlain | housing.py:82 | a character other than `%` is kept, whatever text follows |
| Csrf.UnquoteEncodeRoundTrip | housing.py:82 | decoding undoes percent-encoding of any chosen set of ASCII characters that includes `%`, so escaped and literal characters may mix |
| Csrf.FirstTokenSegment | housing.py:83 | the index of the first segment whose stripped form starts with `crf=`, or none when no segment does |
| Csrf.SegmentToken | housing.py:83 | a segment's token is what follows its last `crf=`: the segment ends with `crf=` plus the token, and the token contains no `crf=` |
| Csrf.CsrfToken | housing.py:81-83 | no token exactly when no decoded `;`-segment starts (after stripping) with `crf=`; otherwise the first such segment ends with `crf=` plus the token, and the token contains neither `crf=` nor `;` |
| Eligibility.FilterGeschikt | housing.py:101-117 | the result is an order-preserving subsequence of the input, every kept listing passes, and every passing listing is kept |
| Eligibility.FilterMembers | housing.py:101-117 | every kept listing is an input listing that passes |
| Eligibility.FilterAppend | housing.py:101-117 | filtering a concatenation is concatenating the filtered parts |
| Eligibility.FilterAllPass | housing.py:101-117 | a list whose every listing passes is returned unchanged |
| Eligibility.FilterIdempotent | housing.py:101-117 | filtering twice is the same as filtering once |
| Eligibility.FilterMaximal | housing.py:101-117 | every subsequence of passing listings is a subsequence of the filtered list, so no passing listing is lost |
| Eligibility.UnitRecordEligibility | housing.py:104-108 | a normalised unit passes exactly when its rent is within the rent bounds, its area is at least the minimum, and its rooms are within the room bounds |
| Eligibility.ClusterRecordEligibility | housing.py:109-115 | a normalised cluster passes exactly when its price range `[PrijsMin, PrijsMax]` meets the rent bounds; area and rooms play no part |
| Reaction.FirstReady | bot.py:69-76 | the first lookup in a window that finds the button ready, or none when no lookup does |
| Reaction.ScrollFrom | bot.py:69-89 | the search stops at the first ready lookup; when none is ready the final wait decides; it scrolls once per failed lookup and never more than the remaining tries |
| Reaction.ScrollToReageerButton | bot.py:64-89 | the button is found at the first of `max_tries` lookups that is ready, else by the final wait, else not at all; at most `max_tries` scrolls |
| Reaction.WaitAndClickReageer | bot.py:91-123 | no button means failure with no click; at most two clicks, and two exactly when the first is intercepted; success exactly when the first click lands or the retry after an interception lands |
| Reaction.ButtonFoundIff | bot.py:64-89 | the button is found exactly when one of the twelve lookups sees it ready or the final wait succeeds |
| Dedup.ProcessWoning | bot.py:125-166 | an empty or settled id changes nothing and says nothing; a shown withdraw button settles the id in both sets silently; otherwise the listing is announced exactly once, first, and settled; an id already reacted to gets only that announcement, and for any other the click follows, with a confirmation on success and a screenshot on failure, and the id becomes reacted-to exactly when the click succeeds; `gereageerd` gains the id exactly when it is new and its page shows a reaction or takes the click; both sets only grow and `gereageerd ⊆ gevonden` is kept |
| Dedup.FailedReactionNotRetried | bot.py:125-166 | after a failed reaction the id is not in `gereageerd`, and every later `process_woning` for that id does nothing |
| Dedup.AnnouncementsAppend | bot.py:197-198 | the listings announced by consecutive steps are the concatenation of each step's announcements |
| Dedup.RunListings | bot.py:197-198 | the fold only grows the sets, keeps `gereageerd ⊆ gevonden`, and settles exactly the non-empty ids it meets |
| Dedup.RunListingsAnnouncements | bot.py:197-198 | the fold announces only listings from its input whose ids were not settled before and are settled after, each id at most once |
| Dedup.RunListingsAnnouncesFresh | bot.py:197-198 | the fold announces every listing that is the first with its id, has a non-empty id not settled before, and whose page shows no earlier reaction; it announces nothing whose page shows one |
| Dedup.RunListingsReactions | bot.py:197-198 | after the fold, `gereageerd` is what it was plus exactly the non-empty new ids whose page shows a reaction or takes the click |
| Dedup.RunListingsConfirms | bot.py:157-162 | the fold confirms exactly the non-empty ids new to both sets whose page shows no earlier reaction and takes the click |
| Dedup.RunListingsScreenshots | bot.py:157-165 | the fold saves a screenshot for exactly the non-empty ids new to both sets whose page shows no earlier reaction and whose click fails |
| Dedup.NoRepeatAcrossCycles | bot.py:191-201 | across two consecutive cycles no id is announced twice |
| Cycle.RunCycle | bot.py:193-206 | a fetch exception leads to re-login with both sets unchanged, and only a fetch exception does; otherwise the eligible listings are the filtered fetch and the new sets and all effects are those of the `process_woning` fold over them; a failed POST completes with nothing done; the sets only grow, stay consistent, and `gevonden` gains exactly the eligible non-empty ids |
| Cycle.EligibleAnnouncements | bot.py:193-198 | folding over the filtered feed announces only eligible listings new to `gevonden`, each with its detail link and each id once |
| Cycle.RunCycleAnnouncements | bot.py:193-198 | a completed cycle announces only listings of its eligible list that were new to `gevonden` and are settled after, with their detail links, each id once; and it announces every eligible listing that is the first with its id, new, and shows no earlier reaction |
| Cycle.RunCycleReactions | bot.py:193-198 | after a completed cycle, `gereageerd` is what it was plus exactly the eligible non-empty new ids whose page shows a reaction or takes the click |

## Left out

- Session login (`session.py`), Telegram delivery (`telegram_utils.py`), the
  page scraper (`scrape_mijndak.py`) and the id store (`storage.py`) are not
  part of this model. Messages become `Dedup.Effect` values. Loading and
  saving the id sets becomes the `State` passed in and returned.
- `load_payload` and the feed POST itself are outside the model: file I/O and
  network. The POST's outcome is a parameter (`Housing.HttpOutcome`), and a
  transport error or a 4xx/5xx status is `TransportFailure`; any other status,
  1xx or 3xx included, delivers its body to the JSON decoding.
- `close_popups`, the overlay dismissal loop, the XPaths, the wait timeouts,
  `scrollBy` and `time.sleep` are left out: browser side effects. Only their
  outcomes are modelled, as the observation parameters.
- `get_session_cookies()` (housing.py:78) runs the browser login, whose
  waits can raise. Such an exception leaves `fetch_aanbod` and sends the
  main loop to re-login (bot.py:205). `Cycle.Fetched` takes the cookies as
  given, so this exception is not modelled; it would end the cycle as the
  same `Relogin` with unchanged sets as any other fetch exception.
- The logging setup, the logging calls and the `while True` loop are left
  out. One pass of the loop is `Cycle.RunCycle`. The cookie installation in
  the driver on (re-)login is not modelled either.
- Exceptions the driver raises inside `process_woning` are not modelled:
  page load, screenshot saving, or the withdraw-button wait failing other
  than by timeout. In the source such an exception ends the cycle with the
  sets part-updated.
- Dedup.ProcessWoning: treats the operator messages as always delivered.
  `send_telegram` (telegram_utils.py:7) posts without catching transport
  errors. A failure of the first message (bot.py:153) ends the cycle before
  the id is settled (bot.py:155), so the listing is announced again in the
  next cycle. A failure of the confirmation (bot.py:161) ends the cycle
  with the id settled but not recorded as reacted to (bot.py:162). In both
  cases the main loop logs in again (bot.py:205).
- Py.Str: prints a float with a fractional part, a dict or a list as the
  placeholder `<value>` instead of Python's `repr`. It is exact for `None`,
  booleans, integers, text and integral floats below 10^16 in size.
- Strings.ParseDecimal: accepts only sign, digits and one decimal point. It
  rejects exponents, `inf`/`nan`, underscores and non-ASCII digits, which
  Python's `float` accepts. `Strings.ParseInt` likewise rejects underscores
  and non-ASCII digits.
- Csrf.Unquote: decodes a `%XY` byte of 128 or more to U+FFFD on its own,
  instead of joining multi-byte UTF-8 sequences as Python does.
- Eligibility.Geschikt: reads a cluster range as its `(min, max)` pair. The
  source prints the range as `"min-max"` and splits it on `-`
  (housing.py:110-111). A negative bound, or one Python prints with a
  negative exponent such as `1e-05`, would make that re-parse raise, and the
  model does not raise there.
- Floating point is modelled by mathematical reals: prices and areas do not
  round.

=== FILE: csrf.dfy ===
/** The anti-forgery token `fetch_aanbod` sends as `x-csrftoken`: read from
    the URL-encoded `nr2Users` session cookie, which holds `;`-separated
    `key=value` segments, one of them `crf=<token>`. */
module Csrf {
  import opened Results
  import opened Strings

  /** The cookie that carries the token. */
  const CookieName: string := "nr2Users"

  /** The key that introduces the token inside the decoded cookie. */
  const TokenKey: string := "crf="

  /** The value of a hexadecimal digit, either case. */
  function HexValue(c: char): Option<nat> {
    if '0' <= c <= '9' then Some(c as int - '0' as int)
    else if 'a' <= c <= 'f' then Some(c as int - 'a' as int + 10)
    else if 'A' <= c <= 'F' then Some(c as int - 'A' as int + 10)
    else None
  }

  /** The character a percent-escaped byte decodes to: itself for ASCII, the
      replacement character for a byte that is not valid UTF-8 on its own. */
  function ByteChar(b: nat): char
    requires b < 256
  {
    if b < 128 then b as char else '\U{FFFD}'
  }

  /** `urllib.parse.unquote`: every `%XY` with two hex digits becomes the
      byte it names, everything else is kept as is. */
  function Unquote(s: string): (r: string)
    ensures |r| <= |s|
    ensures (forall i :: 0 <= i < |s| ==> s[i] != '%') ==> r == s
    decreases |s|
  {
    if |s| == 0 then ""
    else if s[0] == '%' && |s| >= 3 && HexValue(s[1]).Some? && HexValue(s[2]).Some? then
      [ByteChar(HexValue(s[1]).value * 16 + HexValue(s[2]).value)] + Unquote(s[3..])
    else
      [s[0]] + Unquote(s[1..])
  }

  const HexDigits: string := "0123456789ABCDEF"

  /** The `%XY` escape of an ASCII character, upper-case hex. */
  function Escape(c: char): (e: string)
    requires c < 128 as char
    ensures |e| == 3 && e[0] == '%'
  {
    var b := c as int;
    ['%', HexDigits[b / 16], HexDigits[b % 16]]
  }

  /** Percent-encodes the characters of an ASCII string that `escape`
      selects and keeps the others; `escape` selecting every character is
      full percent-encoding. */
  function PercentEncode(s: string, escape: char -> bool): (r: string)
    requires forall i :: 0 <= i < |s| ==> s[i] < 128 as char
    ensures |s| <= |r| <= 3 * |s|
    ensures (forall i :: 0 <= i < |s| ==> escape(s[i])) ==> |r| == 3 * |s|
    decreases |s|
  {
    if |s| == 0 then ""
    else
      assert forall k :: 1 <= k < |s| ==> s[k] == s[1..][k - 1];
      (if escape(s[0]) then Escape(s[0]) else [s[0]]) + PercentEncode(s[1..], escape)
  }

  /** Each upper-case hex digit reads back as its value. */
  lemma HexDigitValue(d: nat)
    requires d < 16
    ensures HexValue(HexDigits[d]) == Some(d)
  {
  }

  /** An escape in front of any text decodes to its character. */
  lemma UnquoteEscape(c: char, tail: string)
    requires c < 128 as char
    ensures Unquote(Escape(c) + tail) == [c] + Unquote(tail)
  {
    var b := c as int;
    var e := Escape(c) + tail;
    HexDigitValue(b / 16);
    HexDigitValue(b % 16);
    assert e[1] == HexDigits[b / 16] && e[2] == HexDigits[b % 16];
    assert e[3..] == tail;
    assert ByteChar(b / 16 * 16 + b % 16) == c;
  }

  /** A character other than `%` in front of any text is kept. */
  lemma UnquotePlain(c: char, tail: string)
    requires c != '%'
    ensures Unquote([c] + tail) == [c] + Unquote(tail)
  {
    assert ([c] + tail)[1..] == tail;
  }

  /** Unquoting undoes percent-encoding of any selection of characters that
      includes `%` itself: escaped and literal characters may mix freely. */
  lemma {:induction false} UnquoteEncodeRoundTrip(s: string, escape: char -> bool)
    requires forall i :: 0 <= i < |s| ==> s[i] < 128 as char
    requires escape('%')
    ensures Unquote(PercentEncode(s, escape)) == s
    decreases |s|
  {
    if |s| > 0 {
      var tail := PercentEncode(s[1..], escape);
      UnquoteEncodeRoundTrip(s[1..], escape);
      if escape(s[0]) {
        UnquoteEscape(s[0], tail);
      } else {
        UnquotePlain(s[0], tail);
      }
      assert [s[0]] + s[1..] == s;
    }
  }

  /** A segment that introduces the token: stripped, it starts with `crf=`. */
  predicate IsTokenSegment(p: string) {
    StartsWith(Strip(p), TokenKey)
  }

  /** A token segment contains the key (where its stripped form begins). */
  lemma TokenSegmentContainsKey(p: string)
    requires IsTokenSegment(p)
    ensures Contains(p, TokenKey)
  {
    var span := StripSpan(p);
    assert p[span.0..span.1][..|TokenKey|] == p[span.0..span.0 + |TokenKey|];
    assert OccursAt(p, TokenKey, span.0);
  }

  /** Index of the first token segment, if any. */
  function FirstTokenSegment(parts: seq<string>): (r: Option<nat>)
    ensures r.None? <==> forall i :: 0 <= i < |parts| ==> !IsTokenSegment(parts[i])
    ensures r.Some? ==> r.value < |parts| && IsTokenSegment(parts[r.value])
    ensures r.Some? ==> forall j :: 0 <= j < r.value ==> !IsTokenSegment(parts[j])
  {
    FirstWhere(parts, IsTokenSegment)
  }

  /** The decoded cookie's `;`-separated segments. */
  function Segments(cookies: map<string, string>): seq<string> {
    var raw := if CookieName in cookies then cookies[CookieName] else "";
    Split(Unquote(raw), ";")
  }

  /** `p` ends with `crf=` followed by `token`. */
  predicate EndsWithToken(p: string, token: string) {
    |TokenKey| + |token| <= |p| && p[|p| - |token| - |TokenKey|..] == TokenKey + token
  }

  /** The token a segment carries: the text after its last `crf=`. */
  function SegmentToken(p: string): (token: string)
    requires Contains(p, TokenKey)
    ensures EndsWithToken(p, token)
    ensures !Contains(token, TokenKey)
    ensures !Contains(p, ";") ==> !Contains(token, ";")
  {
    var token := AfterLast(p, TokenKey);
    assert p[|p| - |token|..] == token;
    SuffixAvoids(p, |p| - |token|, ";");
    token
  }

  /** The token of `fetch_aanbod`: in the first segment whose stripped form
      starts with `crf=`, the text after the segment's last `crf=` (trailing
      whitespace included); `None` when no segment qualifies. */
  function CsrfToken(cookies: map<string, string>): (r: Option<string>)
    ensures var parts := Segments(cookies);
      r.None? <==> forall i :: 0 <= i < |parts| ==> !IsTokenSegment(parts[i])
    ensures var parts := Segments(cookies);
      r.Some? ==> FirstTokenSegment(parts).Some? &&
                  var p := parts[FirstTokenSegment(parts).value];
                  EndsWithToken(p, r.value)
    ensures r.Some? ==> !Contains(r.value, TokenKey) && !Contains(r.value, ";")
  {
    var parts := Segments(cookies);
    match FirstTokenSegment(parts)
    case None => None
    case Some(i) =>
      TokenSegmentContainsKey(parts[i]);
      Some(SegmentToken(parts[i]))
  }

  /** A suffix of a string free of `sep` is free of `sep`. */
  lemma SuffixAvoids(s: string, k: nat, sep: string)
    requires k <= |s|
    ensures !Contains(s, sep) ==> !Contains(s[k..], sep)
  {
    if Contains(s, sep) {
      return;
    }
    forall j: nat | j <= |s[k..]|
      ensures !OccursAt(s[k..], sep, j)
    {
      if j + |sep| <= |s[k..]| {
        assert s[k..][j..j + |sep|] == s[k + j..k + j + |sep|];
        assert !OccursAt(s, sep, k + j);
      }
    }
  }
}

=== FILE: cycle.dfy ===
/** One pass of the bot's main loop: fetch the feed with the session's
    anti-forgery token, keep the eligible listings, and fold
    `process_woning` over them. An exception from the fetch sends the loop
    to its re-login branch with the id sets as they were. */
module Cycle {
  import opened Results
  import opened Py
  import Csrf
  import opened Housing
  import opened Eligibility
  import opened Dedup

  /** The deployment's settings: the portal page and the tenant's bounds. */
  datatype Config = Config(pageUrl: string, criteria: Criteria)

  /** How a cycle ends: with the new sets, the effects and the eligible
      listings, or with an exception that makes the loop log in again. */
  datatype Outcome =
    | Completed(state: State, effects: seq<Effect>, eligible: seq<Listing>)
    | Relogin(state: State, error: PyError)

  /** Every listing of `a` passes `c`, has an id outside `before`, and
      carries the detail link built from its id. */
  predicate AnnouncedEligible(a: seq<Listing>, c: Criteria, pageUrl: string, before: set<string>) {
    forall i :: 0 <= i < |a| ==>
      && Geschikt(c, a[i])
      && a[i].id !in before
      && a[i].detailUrl == DetailUrl(pageUrl, a[i].id)
  }

  /** Every listing the fold over the eligible part of `items` announces
      is eligible, new to `gevonden`, and carries its detail link when every
      listing of `items` does; and it announces each id once. */
  lemma EligibleAnnouncements(c: Criteria, pageUrl: string, items: seq<Listing>, st: State,
                              observe: string -> Observation)
    requires forall k :: 0 <= k < |items| ==> items[k].detailUrl == DetailUrl(pageUrl, items[k].id)
    ensures AnnouncedEligible(Announcements(RunListings(st, FilterGeschikt(c, items), observe).effects),
                              c, pageUrl, st.gevonden)
    ensures DistinctIds(Announcements(RunListings(st, FilterGeschikt(c, items), observe).effects))
  {
    var geschikt := FilterGeschikt(c, items);
    var a := Announcements(RunListings(st, geschikt, observe).effects);
    FilterMembers(c, items);
    RunListingsAnnouncements(st, geschikt, observe);
    forall i | 0 <= i < |a|
      ensures Geschikt(c, a[i]) && a[i].id !in st.gevonden && a[i].detailUrl == DetailUrl(pageUrl, a[i].id)
    {
      assert a[i] in geschikt;
      assert a[i] in items;
    }
  }

  /** The listings the feed request yields this cycle, or the exception it
      raises. */
  function Fetched(cfg: Config, cookies: map<string, string>,
                   respond: Option<string> -> HttpOutcome): Result<seq<Listing>, PyError> {
    FetchAanbod(respond(Csrf.CsrfToken(cookies)), cfg.pageUrl)
  }

  /** The loop body: `respond` is the portal's answer to the feed request
      carrying a given `x-csrftoken`, `observe` the detail pages met during
      this cycle. A fetch exception leads to re-login with the sets as they
      were; otherwise the eligible part of the feed is folded through
      `process_woning`, which settles exactly its non-empty ids. */
  function RunCycle(cfg: Config, cookies: map<string, string>, respond: Option<string> -> HttpOutcome,
                    st: State, observe: string -> Observation): (r: Outcome)
    ensures Fetched(cfg, cookies, respond).Err? <==> r.Relogin?
    ensures r.Relogin? ==> r == Relogin(st, Fetched(cfg, cookies, respond).error)
    ensures r.Completed? ==> r.eligible == FilterGeschikt(cfg.criteria, Fetched(cfg, cookies, respond).value)
    ensures respond(Csrf.CsrfToken(cookies)).TransportFailure? ==> r == Completed(st, [], [])
    ensures Grows(st, r.state)
    ensures Consistent(st) ==> Consistent(r.state)
    ensures r.Completed? ==> r.state.gevonden == st.gevonden + NonEmptyIds(r.eligible)
    ensures r.Completed? ==> Step(r.state, r.effects) == RunListings(st, r.eligible, observe)
  {
    match Fetched(cfg, cookies, respond)
    case Err(e) => Relogin(st, e)
    case Ok(items) =>
      var geschikt := FilterGeschikt(cfg.criteria, items);
      var step := RunListings(st, geschikt, observe);
      Completed(step.state, step.effects, geschikt)
  }

  /** What a completed cycle announces: only eligible listings new to
      `gevonden`, taken from its eligible list and settled by it, each with
      its detail link and each id once; and every
      eligible listing that is the first with its id, new, and shows no
      earlier reaction. */
  lemma RunCycleAnnouncements(cfg: Config, cookies: map<string, string>, respond: Option<string> -> HttpOutcome,
                              st: State, observe: string -> Observation)
    ensures var r := RunCycle(cfg, cookies, respond, st, observe);
      r.Completed? ==>
      && AnnouncedEligible(Announcements(r.effects), cfg.criteria, cfg.pageUrl, st.gevonden)
      && DistinctIds(Announcements(r.effects))
      && AnnouncedFresh(Announcements(r.effects), r.eligible, st.gevonden, r.state.gevonden)
      && AnnouncedExactly(Announcements(r.effects), r.eligible, st.gevonden, observe)
  {
    var f := Fetched(cfg, cookies, respond);
    if f.Ok? {
      var geschikt := FilterGeschikt(cfg.criteria, f.value);
      EligibleAnnouncements(cfg.criteria, cfg.pageUrl, f.value, st, observe);
      RunListingsAnnouncesFresh(st, geschikt, observe);
      RunListingsAnnouncements(st, geschikt, observe);
    }
  }

  /** What a completed cycle records as reacted to: besides the ids already
      there, exactly the eligible non-empty ids new to `gevonden` whose page
      shows a reaction or takes the click. */
  lemma RunCycleReactions(cfg: Config, cookies: map<string, string>, respond: Option<string> -> HttpOutcome,
                          st: State, observe: string -> Observation)
    ensures var r := RunCycle(cfg, cookies, respond, st, observe);
      r.Completed? ==>
      r.state.gereageerd == st.gereageerd + ReactedIds(NonEmptyIds(r.eligible), st.gevonden, observe)
  {
    var f := Fetched(cfg, cookies, respond);
    if f.Ok? {
      RunListingsReactions(st, FilterGeschikt(cfg.criteria, f.value), observe);
    }
  }
}

=== FILE: dedup.dfy ===
/** `process_woning` and the per-cycle fold: each eligible listing is driven
    through the detail page at most once, tracked by two id sets,
    `gevonden` (announced or otherwise settled) and `gereageerd` (reacted
    to). The operator messages and the debug screenshot become a list of
    effects; the browser becomes an observation per listing. */
module Dedup {
  import opened Housing
  import Reaction

  /** The two id sets the bot persists between cycles. */
  datatype State = State(gevonden: set<string>, gereageerd: set<string>)

  /** Every reacted-to id has also been settled. */
  predicate Consistent(st: State) {
    st.gereageerd <= st.gevonden
  }

  /** Neither set lost an id from `a` to `b`. */
  predicate Grows(a: State, b: State) {
    a.gevonden <= b.gevonden && a.gereageerd <= b.gereageerd
  }

  /** The detail page the driver opens (not the listing's own `detailUrl`). */
  const HuisDetailsBase: string := "https://amsterdam.mijndak.nl/HuisDetails?PublicatieId="

  function HuisDetailsUrl(pid: string): string {
    HuisDetailsBase + pid
  }

  /** Where the debug screenshot of a failed reaction is saved. */
  function ScreenshotPath(pid: string): string {
    "debug_" + pid + ".png"
  }

  /** What `process_woning` does to the outside world: the "new listing"
      message (listing and detail link), the "reacted" message, or a saved
      screenshot. */
  datatype Effect =
    | Announce(listing: Listing, link: string)
    | Confirm(pid: string)
    | Screenshot(path: string)

  /** What the driver finds on a listing's detail page: whether the
      "Reactie intrekken" button shows a reaction was already made, and how
      the apply button behaves. */
  datatype Observation = Observation(withdrawShown: bool, page: Reaction.Page)

  /** The state after a step and the effects it produced, in order. */
  datatype Step = Step(state: State, effects: seq<Effect>)

  /** A listing `process_woning` acts on: a non-empty id not yet settled. */
  predicate Fresh(st: State, w: Listing) {
    w.id != "" && w.id !in st.gevonden
  }

  /** Whether the apply interaction on `obs`'s page succeeds. */
  predicate ReactionSucceeds(obs: Observation) {
    Reaction.WaitAndClickReageer(obs.page).success
  }

  /** Whether a fresh id met on `obs`'s page ends up recorded as reacted to:
      a reaction is already shown, or the apply interaction succeeds. */
  predicate EndsReacted(obs: Observation) {
    obs.withdrawShown || ReactionSucceeds(obs)
  }

  /** The listings announced by a run of effects, in order. */
  function Announcements(effects: seq<Effect>): (ls: seq<Listing>)
    ensures |ls| <= |effects|
  {
    if |effects| == 0 then []
    else (if effects[0].Announce? then [effects[0].listing] else []) + Announcements(effects[1..])
  }

  /** Announcements of a concatenation are the concatenated announcements. */
  lemma {:induction false} AnnouncementsAppend(a: seq<Effect>, b: seq<Effect>)
    ensures Announcements(a + b) == Announcements(a) + Announcements(b)
    decreases |a|
  {
    if |a| == 0 {
      assert a + b == b;
    } else {
      assert (a + b)[0] == a[0];
      assert (a + b)[1..] == a[1..] + b;
      AnnouncementsAppend(a[1..], b);
    }
  }

  /** No two announced listings share an id. */
  predicate DistinctIds(ls: seq<Listing>) {
    forall i, j :: 0 <= i < j < |ls| ==> ls[i].id != ls[j].id
  }

  /** `process_woning(driver, w, gevonden, gereageerd)`:
      - an empty or already settled id changes nothing and says nothing;
      - a reaction already on the page settles the id in both sets, silently;
      - otherwise the listing is announced first, its id settled, and, unless
        already reacted to, the apply interaction runs: on success the id is
        recorded as reacted and confirmed, on failure a screenshot is saved
        and the id stays out of `gereageerd`. */
  function ProcessWoning(st: State, w: Listing, obs: Observation): (r: Step)
    ensures !Fresh(st, w) ==> r == Step(st, [])
    ensures Fresh(st, w) && obs.withdrawShown ==>
      r == Step(State(st.gevonden + {w.id}, st.gereageerd + {w.id}), [])
    ensures Fresh(st, w) && !obs.withdrawShown ==>
      && r.state.gevonden == st.gevonden + {w.id}
      && 1 <= |r.effects| <= 2
      && r.effects[0] == Announce(w, HuisDetailsUrl(w.id))
      && (w.id in r.state.gereageerd <==> w.id in st.gereageerd || ReactionSucceeds(obs))
      && r.state.gereageerd <= st.gereageerd + {w.id}
    ensures Fresh(st, w) && !obs.withdrawShown && w.id !in st.gereageerd ==>
      r.effects == [Announce(w, HuisDetailsUrl(w.id)),
                    if ReactionSucceeds(obs) then Confirm(w.id) else Screenshot(ScreenshotPath(w.id))]
    ensures Fresh(st, w) && !obs.withdrawShown && w.id in st.gereageerd ==>
      r.effects == [Announce(w, HuisDetailsUrl(w.id))]
    ensures Announcements(r.effects) == if Fresh(st, w) && !obs.withdrawShown then [w] else []
    ensures Grows(st, r.state)
    ensures w.id != "" ==> w.id in r.state.gevonden
    ensures r.state.gevonden == st.gevonden + (if w.id == "" then {} else {w.id})
    ensures r.state.gereageerd == st.gereageerd + (if Fresh(st, w) && EndsReacted(obs) then {w.id} else {})
    ensures Consistent(st) ==> Consistent(r.state)
  {
    var pid := w.id;
    if pid == "" || pid in st.gevonden then
      Step(st, [])
    else if obs.withdrawShown then
      Step(State(st.gevonden + {pid}, st.gereageerd + {pid}), [])
    else
      var notice := Announce(w, HuisDetailsUrl(pid));
      var settled := st.gevonden + {pid};
      if pid in st.gereageerd then
        Step(State(settled, st.gereageerd), [notice])
      else if ReactionSucceeds(obs) then
        Step(State(settled, st.gereageerd + {pid}), [notice, Confirm(pid)])
      else
        Step(State(settled, st.gereageerd), [notice, Screenshot(ScreenshotPath(pid))])
  }

  /** A reaction that fails is never tried again: the id is settled, so
      every later `process_woning` for it is a no-op, while it stays out of
      `gereageerd`. */
  lemma FailedReactionNotRetried(st: State, w: Listing, obs: Observation, later: State, w2: Listing, obs2: Observation)
    requires Fresh(st, w) && !obs.withdrawShown && w.id !in st.gereageerd && !ReactionSucceeds(obs)
    requires Grows(ProcessWoning(st, w, obs).state, later) && w2.id == w.id
    ensures w.id !in ProcessWoning(st, w, obs).state.gereageerd
    ensures ProcessWoning(later, w2, obs2) == Step(later, [])
  {
  }

  /** The ids of a list of listings, empty ones left out. */
  function NonEmptyIds(ws: seq<Listing>): (ids: set<string>)
    ensures "" !in ids
    ensures forall k :: 0 <= k < |ws| && ws[k].id != "" ==> ws[k].id in ids
  {
    if |ws| == 0 then {}
    else (if ws[0].id != "" then {ws[0].id} else {}) + NonEmptyIds(ws[1..])
  }

  /** The loop `for woning in geschikt: process_woning(...)`, threading both
      sets through and collecting the effects. `observe` gives the detail
      page of an id as the driver meets it during this cycle. The fold only
      grows the sets, keeps them consistent, and settles exactly the
      non-empty ids it meets. */
  function RunListings(st: State, ws: seq<Listing>, observe: string -> Observation): (r: Step)
    ensures Grows(st, r.state)
    ensures Consistent(st) ==> Consistent(r.state)
    ensures r.state.gevonden == st.gevonden + NonEmptyIds(ws)
    ensures r.state.gereageerd <= st.gereageerd + NonEmptyIds(ws)
    decreases |ws|
  {
    if |ws| == 0 then
      Step(st, [])
    else
      var first := ProcessWoning(st, ws[0], observe(ws[0].id));
      var rest := RunListings(first.state, ws[1..], observe);
      Step(rest.state, first.effects + rest.effects)
  }

  /** Every listing of `a` comes from `ws`, has an id outside `before` and
      inside `after`. */
  predicate AnnouncedFresh(a: seq<Listing>, ws: seq<Listing>, before: set<string>, after: set<string>) {
    forall i :: 0 <= i < |a| ==> a[i] in ws && a[i].id !in before && a[i].id in after
  }

  /** What one step announces: nothing, or the listing `w` whose id was
      outside `before` and is inside `mid`. */
  predicate AnnouncesAtMost(a1: seq<Listing>, w: Listing, before: set<string>, mid: set<string>) {
    a1 == [] || (a1 == [w] && w.id !in before && w.id in mid)
  }

  /** Prepending one step's announcement to a fresh run keeps it fresh. */
  lemma ConsFresh(a1: seq<Listing>, a2: seq<Listing>, ws: seq<Listing>,
                  before: set<string>, mid: set<string>, after: set<string>)
    requires |ws| > 0 && AnnouncesAtMost(a1, ws[0], before, mid)
    requires before <= mid <= after
    requires AnnouncedFresh(a2, ws[1..], mid, after)
    ensures AnnouncedFresh(a1 + a2, ws, before, after)
  {
    var a := a1 + a2;
    forall i | 0 <= i < |a|
      ensures a[i] in ws && a[i].id !in before && a[i].id in after
    {
      if i < |a1| {
        assert a[i] == ws[0];
      } else {
        assert a[i] == a2[i - |a1|];
        assert a2[i - |a1|] in ws[1..];
      }
    }
  }

  /** Two runs of distinct ids, the first inside `mid` and the second
      outside it, concatenate to a run of distinct ids. */
  lemma AppendDistinct(a1: seq<Listing>, a2: seq<Listing>, mid: set<string>)
    requires forall i :: 0 <= i < |a1| ==> a1[i].id in mid
    requires forall i :: 0 <= i < |a2| ==> a2[i].id !in mid
    requires DistinctIds(a1) && DistinctIds(a2)
    ensures DistinctIds(a1 + a2)
  {
    var a := a1 + a2;
    forall i, j | 0 <= i < j < |a|
      ensures a[i].id != a[j].id
    {
      if j < |a1| {
        assert a[i] == a1[i] && a[j] == a1[j];
      } else if i < |a1| {
        assert a[i] == a1[i] && a[j] == a2[j - |a1|];
      } else {
        assert a[i] == a2[i - |a1|] && a[j] == a2[j - |a1|];
      }
    }
  }

  /** The fold announces only listings of its input that were not settled
      before it ran, settles every one it announces, and announces each id
      at most once. */
  lemma {:induction false} RunListingsAnnouncements(st: State, ws: seq<Listing>, observe: string -> Observation)
    ensures var r := RunListings(st, ws, observe);
      AnnouncedFresh(Announcements(r.effects), ws, st.gevonden, r.state.gevonden)
    ensures DistinctIds(Announcements(RunListings(st, ws, observe).effects))
    decreases |ws|
  {
    if |ws| > 0 {
      var first := ProcessWoning(st, ws[0], observe(ws[0].id));
      var rest := RunListings(first.state, ws[1..], observe);
      var r := RunListings(st, ws, observe);
      assert r == Step(rest.state, first.effects + rest.effects);
      RunListingsAnnouncements(first.state, ws[1..], observe);
      AnnouncementsAppend(first.effects, rest.effects);
      var a1 := Announcements(first.effects);
      var a2 := Announcements(rest.effects);
      assert AnnouncesAtMost(a1, ws[0], st.gevonden, first.state.gevonden);
      ConsFresh(a1, a2, ws, st.gevonden, first.state.gevonden, r.state.gevonden);
      AppendDistinct(a1, a2, first.state.gevonden);
    }
  }

  /** The announcements of consecutive cycles never repeat an id: once
      announced, a listing is settled for good. */
  lemma NoRepeatAcrossCycles(st: State, ws1: seq<Listing>, ws2: seq<Listing>,
                             observe1: string -> Observation, observe2: string -> Observation)
    ensures var r1 := RunListings(st, ws1, observe1);
      var r2 := RunListings(r1.state, ws2, observe2);
      DistinctIds(Announcements(r1.effects + r2.effects))
  {
    var r1 := RunListings(st, ws1, observe1);
    var r2 := RunListings(r1.state, ws2, observe2);
    RunListingsAnnouncements(st, ws1, observe1);
    RunListingsAnnouncements(r1.state, ws2, observe2);
    AnnouncementsAppend(r1.effects, r2.effects);
    AppendDistinct(Announcements(r1.effects), Announcements(r2.effects), r1.state.gevonden);
  }

  /** The ids of `ids` outside `before` whose page ends with a reaction. */
  function ReactedIds(ids: set<string>, before: set<string>, observe: string -> Observation): (r: set<string>)
    ensures r <= ids
  {
    set x | x in ids && x !in before && EndsReacted(observe(x))
  }

  /** One step's contribution to `ReactedIds`: the head id, when it is
      non-empty, new and reacted to, joined to what the rest adds once the
      head id is settled. */
  lemma ReactedIdsCons(ger: set<string>, gev: set<string>, id: string, rest: set<string>,
                       observe: string -> Observation)
    ensures var head := if id == "" then {} else {id};
      ger + (if id != "" && id !in gev && EndsReacted(observe(id)) then {id} else {})
        + ReactedIds(rest, gev + head, observe)
      == ger + ReactedIds(head + rest, gev, observe)
  {
  }

  /** The ids the fold records as reacted to, beyond those already there:
      exactly the non-empty ids of `ws` that were not settled before and
      whose page shows a reaction or takes the click. */
  lemma {:induction false} RunListingsReactions(st: State, ws: seq<Listing>, observe: string -> Observation)
    ensures RunListings(st, ws, observe).state.gereageerd ==
      st.gereageerd + ReactedIds(NonEmptyIds(ws), st.gevonden, observe)
    decreases |ws|
  {
    if |ws| > 0 {
      var w := ws[0];
      var first := ProcessWoning(st, w, observe(w.id));
      RunListingsReactions(first.state, ws[1..], observe);
      assert NonEmptyIds(ws) == (if w.id != "" then {w.id} else {}) + NonEmptyIds(ws[1..]);
      ReactedIdsCons(st.gereageerd, st.gevonden, w.id, NonEmptyIds(ws[1..]), observe);
    }
  }

  /** `ws[k]` is the first listing of `ws` carrying its id. */
  predicate FirstWithId(ws: seq<Listing>, k: nat)
    requires k < |ws|
  {
    forall j :: 0 <= j < k ==> ws[j].id != ws[k].id
  }

  /** `ws[k]` is a listing the fold must announce: the first with its id,
      that id non-empty and outside `before`, and no reaction shown on its
      page. */
  predicate DueAnnouncement(ws: seq<Listing>, k: nat, before: set<string>, observe: string -> Observation)
    requires k < |ws|
  {
    FirstWithId(ws, k) && ws[k].id != "" && ws[k].id !in before && !observe(ws[k].id).withdrawShown
  }

  /** `a` announces every listing due in `ws`, and nothing whose page shows
      an earlier reaction. */
  predicate AnnouncedExactly(a: seq<Listing>, ws: seq<Listing>, before: set<string>, observe: string -> Observation) {
    && (forall k :: 0 <= k < |ws| && DueAnnouncement(ws, k, before, observe) ==> ws[k] in a)
    && (forall i :: 0 <= i < |a| ==> !observe(a[i].id).withdrawShown)
  }

  /** Prepending one step's announcement to a run announcing exactly the
      rest keeps it exact for the whole list. */
  lemma ConsExactly(a1: seq<Listing>, a2: seq<Listing>, ws: seq<Listing>, before: set<string>,
                    mid: set<string>, observe: string -> Observation)
    requires |ws| > 0
    requires a1 == (if Fresh(State(before, {}), ws[0]) && !observe(ws[0].id).withdrawShown then [ws[0]] else [])
    requires mid == before + (if ws[0].id == "" then {} else {ws[0].id})
    requires AnnouncedExactly(a2, ws[1..], mid, observe)
    ensures AnnouncedExactly(a1 + a2, ws, before, observe)
  {
    var a := a1 + a2;
    forall k | 0 <= k < |ws| && DueAnnouncement(ws, k, before, observe)
      ensures ws[k] in a
    {
      if k == 0 {
        assert a[0] == ws[0];
      } else {
        assert ws[k] == ws[1..][k - 1];
        assert FirstWithId(ws[1..], k - 1) by {
          forall j | 0 <= j < k - 1
            ensures ws[1..][j].id != ws[1..][k - 1].id
          {
            assert ws[1..][j] == ws[j + 1];
          }
        }
        assert ws[0].id != ws[k].id;
        assert DueAnnouncement(ws[1..], k - 1, mid, observe);
        assert ws[k] in a2;
      }
    }
    forall i | 0 <= i < |a|
      ensures !observe(a[i].id).withdrawShown
    {
      if i >= |a1| {
        assert a[i] == a2[i - |a1|];
      }
    }
  }

  /** The fold announces every listing that is the first with its id, has a
      non-empty id not settled before it ran, and whose page shows no
      earlier reaction; it announces nothing whose page shows one. */
  lemma {:induction false} RunListingsAnnouncesFresh(st: State, ws: seq<Listing>, observe: string -> Observation)
    ensures AnnouncedExactly(Announcements(RunListings(st, ws, observe).effects), ws, st.gevonden, observe)
    decreases |ws|
  {
    if |ws| > 0 {
      var first := ProcessWoning(st, ws[0], observe(ws[0].id));
      var rest := RunListings(first.state, ws[1..], observe);
      assert RunListings(st, ws, observe) == Step(rest.state, first.effects + rest.effects);
      RunListingsAnnouncesFresh(first.state, ws[1..], observe);
      AnnouncementsAppend(first.effects, rest.effects);
      ConsExactly(Announcements(first.effects), Announcements(rest.effects), ws, st.gevonden,
                  first.state.gevonden, observe);
    }
  }

  /** The ids a run of effects confirms as reacted to. */
  function Confirmed(effects: seq<Effect>): set<string> {
    set e | e in effects && e.Confirm? :: e.pid
  }

  /** The screenshot paths a run of effects saves. */
  function Screenshots(effects: seq<Effect>): set<string> {
    set e | e in effects && e.Screenshot? :: e.path
  }

  /** The screenshot paths of a set of ids. */
  function ScreenshotPaths(ids: set<string>): set<string> {
    set x | x in ids :: ScreenshotPath(x)
  }

  /** The ids of `ids` new to both sets of `st`, whose page shows no
      reaction and whose apply interaction succeeds exactly when
      `succeeded` says so. */
  function ClickedIds(ids: set<string>, st: State, observe: string -> Observation, succeeded: bool): (r: set<string>)
    ensures r <= ids
    ensures forall x :: x in r ==> x !in st.gevonden && x !in st.gereageerd && !observe(x).withdrawShown
  {
    set x | x in ids && x !in st.gevonden && x !in st.gereageerd
              && !observe(x).withdrawShown && ReactionSucceeds(observe(x)) == succeeded
  }

  /** The id `id` itself when, met first against `st`, it is clicked with
      outcome `succeeded`; otherwise nothing. */
  function ClickedNow(st: State, id: string, observe: string -> Observation, succeeded: bool): set<string> {
    if id != "" && id !in st.gevonden && id !in st.gereageerd && !observe(id).withdrawShown
       && ReactionSucceeds(observe(id)) == succeeded then {id} else {}
  }

  /** One step's contribution to `ClickedIds`: what the head id adds,
      joined to what the rest adds once the head id is settled. */
  lemma ClickedIdsCons(st: State, mid: State, id: string, rest: set<string>,
                       observe: string -> Observation, succeeded: bool)
    requires mid.gevonden == st.gevonden + (if id == "" then {} else {id})
    requires st.gereageerd <= mid.gereageerd <= st.gereageerd + (if id == "" then {} else {id})
    ensures ClickedNow(st, id, observe, succeeded) + ClickedIds(rest, mid, observe, succeeded)
      == ClickedIds((if id == "" then {} else {id}) + rest, st, observe, succeeded)
  {
  }

  /** One `process_woning` confirms its id exactly when it is clicked
      successfully, and saves a screenshot exactly when the click fails. */
  lemma StepClicks(st: State, w: Listing, observe: string -> Observation)
    ensures Confirmed(ProcessWoning(st, w, observe(w.id)).effects) == ClickedNow(st, w.id, observe, true)
    ensures Screenshots(ProcessWoning(st, w, observe(w.id)).effects) ==
      ScreenshotPaths(ClickedNow(st, w.id, observe, false))
  {
    var effects := ProcessWoning(st, w, observe(w.id)).effects;
    if Fresh(st, w) && !observe(w.id).withdrawShown && w.id !in st.gereageerd {
      assert effects[1] in effects;
    }
  }

  /** Confirmations and screenshots of a concatenation are the unions of
      those of its parts. */
  lemma ClickEffectsAppend(a: seq<Effect>, b: seq<Effect>)
    ensures Confirmed(a + b) == Confirmed(a) + Confirmed(b)
    ensures Screenshots(a + b) == Screenshots(a) + Screenshots(b)
  {
  }

  /** The fold confirms exactly the non-empty ids of `ws` new to both sets
      whose page shows no reaction and takes the click. */
  lemma {:induction false} RunListingsConfirms(st: State, ws: seq<Listing>, observe: string -> Observation)
    ensures Confirmed(RunListings(st, ws, observe).effects) == ClickedIds(NonEmptyIds(ws), st, observe, true)
    decreases |ws|
  {
    if |ws| > 0 {
      var w := ws[0];
      var first := ProcessWoning(st, w, observe(w.id));
      var rest := RunListings(first.state, ws[1..], observe);
      assert RunListings(st, ws, observe).effects == first.effects + rest.effects;
      RunListingsConfirms(first.state, ws[1..], observe);
      ClickEffectsAppend(first.effects, rest.effects);
      StepClicks(st, w, observe);
      assert NonEmptyIds(ws) == (if w.id != "" then {w.id} else {}) + NonEmptyIds(ws[1..]);
      ClickedIdsCons(st, first.state, w.id, NonEmptyIds(ws[1..]), observe, true);
    }
  }

  /** The fold saves a screenshot for exactly the non-empty ids of `ws` new
      to both sets whose page shows no reaction and whose click fails. */
  lemma {:induction false} RunListingsScreenshots(st: State, ws: seq<Listing>, observe: string -> Observation)
    ensures Screenshots(RunListings(st, ws, observe).effects) ==
      ScreenshotPaths(ClickedIds(NonEmptyIds(ws), st, observe, false))
    decreases |ws|
  {
    if |ws| > 0 {
      var w := ws[0];
      var first := ProcessWoning(st, w, observe(w.id));
      var rest := RunListings(first.state, ws[1..], observe);
      assert RunListings(st, ws, observe).effects == first.effects + rest.effects;
      RunListingsScreenshots(first.state, ws[1..], observe);
      ClickEffectsAppend(first.effects, rest.effects);
      StepClicks(st, w, observe);
      assert NonEmptyIds(ws) == (if w.id != "" then {w.id} else {}) + NonEmptyIds(ws[1..]);
      ClickedIdsCons(st, first.state, w.id, NonEmptyIds(ws[1..]), observe, false);
      var now := ClickedNow(st, w.id, observe, false);
      var failed := ClickedIds(NonEmptyIds(ws[1..]), first.state, observe, false);
      assert ScreenshotPaths(now + failed) == ScreenshotPaths(now) + ScreenshotPaths(failed);
    }
  }
}

=== FILE: eligibility.dfy ===
/** `filter_geschikt`: the tenant's criteria applied to each listing, keeping
    the ones that pass in their original order. */
module Eligibility {
  import opened Results
  import opened Py
  import opened Housing

  /** The configured bounds (`MIN_HUUR`, `MAX_HUUR`, `MIN_OPPERVLAKTE`,
      `MIN_KAMERS`, `MAX_KAMERS`). */
  datatype Criteria = Criteria(
    minHuur: real,
    maxHuur: real,
    minOppervlakte: real,
    minKamers: real,
    maxKamers: real)

  /** A unit passes when its rent, area and room count are all within bounds;
      a cluster passes when its price range meets the rent bounds, whatever
      its area and rooms. A scalar cluster price is a range of one value. */
  predicate Geschikt(c: Criteria, w: Listing) {
    match w.figures
    case UnitFigures(rent, area, rooms) =>
      && c.minHuur <= rent <= c.maxHuur
      && area >= c.minOppervlakte
      && c.minKamers <= rooms as real <= c.maxKamers
    case ClusterFigures(rentSpan, _, _) =>
      var (minH, maxH) := Bounds(rentSpan);
      !(maxH < c.minHuur || minH > c.maxHuur)
  }

  /** `a` is `b` with some elements left out, the rest in the same order. */
  predicate IsSubsequence<T(==)>(a: seq<T>, b: seq<T>)
    decreases |b|
  {
    || |a| == 0
    || (|b| > 0 && ((a[0] == b[0] && IsSubsequence(a[1..], b[1..])) || IsSubsequence(a, b[1..])))
  }

  /** `filter_geschikt`: an order-preserving subsequence of `items` holding
      exactly the listings that pass. */
  function FilterGeschikt(c: Criteria, items: seq<Listing>): (r: seq<Listing>)
    ensures IsSubsequence(r, items)
    ensures forall k :: 0 <= k < |r| ==> Geschikt(c, r[k])
    ensures forall k :: 0 <= k < |items| && Geschikt(c, items[k]) ==> items[k] in r
    decreases |items|
  {
    if |items| == 0 then []
    else
      var rest := FilterGeschikt(c, items[1..]);
      assert forall k :: 1 <= k < |items| ==> items[k] == items[1..][k - 1];
      if Geschikt(c, items[0]) then [items[0]] + rest else rest
  }

  /** Every listing the filter keeps is an input listing that passes. */
  lemma {:induction false} FilterMembers(c: Criteria, items: seq<Listing>)
    ensures forall l :: l in FilterGeschikt(c, items) ==> l in items && Geschikt(c, l)
    decreases |items|
  {
    if |items| > 0 {
      FilterMembers(c, items[1..]);
      assert forall l :: l in items[1..] ==> l in items;
    }
  }

  /** Filtering distributes over concatenation. */
  lemma {:induction false} FilterAppend(c: Criteria, a: seq<Listing>, b: seq<Listing>)
    ensures FilterGeschikt(c, a + b) == FilterGeschikt(c, a) + FilterGeschikt(c, b)
    decreases |a|
  {
    if |a| == 0 {
      assert a + b == b;
    } else {
      assert (a + b)[0] == a[0];
      assert (a + b)[1..] == a[1..] + b;
      FilterAppend(c, a[1..], b);
    }
  }

  /** A list whose every element passes is its own filtering. */
  lemma {:induction false} FilterAllPass(c: Criteria, items: seq<Listing>)
    requires forall k :: 0 <= k < |items| ==> Geschikt(c, items[k])
    ensures FilterGeschikt(c, items) == items
    decreases |items|
  {
    if |items| > 0 {
      FilterAllPass(c, items[1..]);
    }
  }

  /** Filtering twice is filtering once. */
  lemma FilterIdempotent(c: Criteria, items: seq<Listing>)
    ensures FilterGeschikt(c, FilterGeschikt(c, items)) == FilterGeschikt(c, items)
  {
    FilterAllPass(c, FilterGeschikt(c, items));
  }

  /** A subsequence of a tail is a subsequence of the whole. */
  lemma SubsequenceCons<T>(a: seq<T>, x: T, b: seq<T>)
    requires IsSubsequence(a, b)
    ensures IsSubsequence(a, [x] + b)
  {
    assert ([x] + b)[1..] == b;
  }

  /** The filter keeps the most it can: every subsequence of `items` made of
      passing listings is a subsequence of the filtered list. */
  lemma {:induction false} FilterMaximal(c: Criteria, items: seq<Listing>, s: seq<Listing>)
    requires IsSubsequence(s, items)
    requires forall k :: 0 <= k < |s| ==> Geschikt(c, s[k])
    ensures IsSubsequence(s, FilterGeschikt(c, items))
    decreases |items|
  {
    if |s| == 0 {
      return;
    }
    var rest := FilterGeschikt(c, items[1..]);
    if s[0] == items[0] && IsSubsequence(s[1..], items[1..]) {
      FilterMaximal(c, items[1..], s[1..]);
      var r := [items[0]] + rest;
      assert FilterGeschikt(c, items) == r;
      assert r[1..] == rest;
    } else {
      FilterMaximal(c, items[1..], s);
      if Geschikt(c, items[0]) {
        SubsequenceCons(s, items[0], rest);
      }
    }
  }

  /** A normalised unit passes exactly when the unit's own fields (0 where
      missing) are within all five bounds. */
  lemma UnitRecordEligibility(c: Criteria, item: Dict, pageUrl: string, l: Listing, rent: real, area: real, rooms: int)
    requires !IsClusterRecord(item) && UnifyItem(item, pageUrl) == Ok(l)
    requires FloatOr0(Get(EenheidOf(item), "NettoHuur")) == Ok(rent)
    requires FloatOr0(Get(EenheidOf(item), "WoonVertrekkenTotOpp")) == Ok(area)
    requires IntOr0(Get(EenheidOf(item), "AantalKamers")) == Ok(rooms)
    ensures Geschikt(c, l) <==>
      && c.minHuur <= rent <= c.maxHuur
      && area >= c.minOppervlakte
      && c.minKamers <= rooms as real <= c.maxKamers
  {
    assert DictOr(Get(item, "Cluster")).Ok?;
    assert UnifyUnit(item, pageUrl) == Ok(l);
    UnifyUnitFigures(item, pageUrl, l);
  }


  /** A normalised cluster passes exactly when its price range
      `[PrijsMin, PrijsMax]` (0 where missing) meets the rent bounds: whether
      the price collapsed to one value makes no difference, and area and
      room count play no part. */
  lemma ClusterRecordEligibility(c: Criteria, item: Dict, pageUrl: string, l: Listing, priceMin: real, priceMax: real)
    requires IsClusterRecord(item) && UnifyItem(item, pageUrl) == Ok(l)
    requires FloatOr0(Get(ClusterOf(item), "PrijsMin")) == Ok(priceMin)
    requires FloatOr0(Get(ClusterOf(item), "PrijsMax")) == Ok(priceMax)
    ensures Geschikt(c, l) <==> !(priceMax < c.minHuur || priceMin > c.maxHuur)
  {
    assert DictOr(Get(item, "Cluster")).Ok?;
    var cid := Str(Get(ClusterOf(item), "PublicatieId"));
    assert UnifyCluster(item, ClusterOf(item), cid, pageUrl) == Ok(l);
    UnifyClusterFigures(item, ClusterOf(item), cid, pageUrl);
  }

}

=== FILE: housing.dfy ===
/** The listing normaliser and fetcher of `housing.py`: two upstream record
    shapes ("cluster" and "unit") mapped onto one canonical `Listing`, and the
    feed response turned into the list of listings. */
module Housing {
  import opened Results
  import opened Py
  import Strings

  /** A cluster's price, area or room count: one value when its minimum and
      maximum agree, the pair otherwise. Units always carry a single value. */
  datatype Measure<T> = Scalar(v: T) | Range(lo: T, hi: T)

  /** The `(min, max)` a measure stands for; the eligibility filter reads a
      cluster's price this way. */
  function Bounds<T>(m: Measure<T>): (T, T) {
    match m
    case Scalar(v) => (v, v)
    case Range(lo, hi) => (lo, hi)
  }

  /** The measure a cluster's `min`/`max` pair collapses to. */
  function Collapse<T(==)>(lo: T, hi: T): (m: Measure<T>)
    ensures Bounds(m) == (lo, hi)
    ensures m.Scalar? <==> lo == hi
  {
    if lo == hi then Scalar(lo) else Range(lo, hi)
  }

  /** The figures of a listing, by kind (the `type` field of the source). */
  datatype Figures =
    | UnitFigures(rent: real, area: real, rooms: int)
    | ClusterFigures(rentSpan: Measure<real>, areaSpan: Measure<real>, roomsSpan: Measure<int>)

  /** The canonical listing. The source stores the identifier under both
      `PublicatieId` and `id`, always the same string; `id` is that string. */
  datatype Listing = Listing(
    id: string,
    adres: Val,
    figures: Figures,
    detailUrl: string,
    photo: Val,
    raw: Dict)
  {
    predicate IsCluster() {
      figures.ClusterFigures?
    }
  }

  function DetailUrl(pageUrl: string, id: string): string {
    pageUrl + "?EntiteitId=" + id
  }

  /** The record's `Cluster` sub-record, or the empty dict when it is absent
      or falsy (or not a dict, in which case normalisation raises). */
  function ClusterOf(item: Dict): Dict {
    match DictOr(Get(item, "Cluster"))
    case Ok(cl) => cl
    case Err(_) => map[]
  }

  /** The record's `Eenheid` sub-record, read the same way. */
  function EenheidOf(item: Dict): Dict {
    match DictOr(Get(item, "Eenheid"))
    case Ok(eu) => eu
    case Err(_) => map[]
  }

  /** The record's `Adres` sub-record, read the same way. */
  function AdresOf(item: Dict): Dict {
    match DictOr(Get(item, "Adres"))
    case Ok(ad) => ad
    case Err(_) => map[]
  }

  /** A record is read as a cluster when its cluster `PublicatieId` is truthy
      and does not print as `0`. */
  predicate IsClusterRecord(item: Dict) {
    var pub := Get(ClusterOf(item), "PublicatieId");
    Truthy(pub) && Str(pub) != "0"
  }

  /** A truthy value never prints as the empty string. */
  lemma TruthyStrNonEmpty(v: Val)
    requires Truthy(v)
    ensures Str(v) != ""
  {
  }

  /** The fields every normalised listing carries over from its record: the
      raw record itself, the photo, and the detail link built from the id. */
  predicate Carried(l: Listing, item: Dict, pageUrl: string) {
    && l.raw == item
    && l.photo == Get(item, "Foto_Locatie")
    && l.detailUrl == DetailUrl(pageUrl, l.id)
  }

  /** The cluster branch of `unify_item`: identifier `cid`, each min/max pair
      collapsed to a measure, the cluster's name as address. The figures are
      described by `UnifyClusterFigures`. */
  function UnifyCluster(item: Dict, cl: Dict, cid: string, pageUrl: string): (r: Result<Listing, PyError>)
    ensures r.Ok? ==> r.value.id == cid && r.value.IsCluster() && Carried(r.value, item, pageUrl)
  {
    var priceMin :- FloatOr0(Get(cl, "PrijsMin"));
    var priceMax :- FloatOr0(Get(cl, "PrijsMax"));
    var oppMin :- FloatOr0(Get(cl, "WoonVertrekkenTotOppMin"));
    var oppMax :- FloatOr0(Get(cl, "WoonVertrekkenTotOppMax"));
    var roomsMin :- IntOr0(Get(cl, "AantalKamersMin"));
    var roomsMax :- IntOr0(Get(cl, "AantalKamersMax"));
    var figures := ClusterFigures(Collapse(priceMin, priceMax), Collapse(oppMin, oppMax), Collapse(roomsMin, roomsMax));
    Ok(Listing(cid, Get(cl, "Naam", Text("")), figures, DetailUrl(pageUrl, cid), Get(item, "Foto_Locatie"), item))
  }

  /** A cluster normalises exactly when its six range fields coerce; then
      each measure stands for the field pair `(min, max)` (missing or falsy
      fields read as 0) and is a scalar exactly when the two agree; the
      address is the cluster's `Naam`. */
  lemma UnifyClusterFigures(item: Dict, cl: Dict, cid: string, pageUrl: string)
    ensures var r := UnifyCluster(item, cl, cid, pageUrl);
      r.Ok? <==>
      && FloatOr0(Get(cl, "PrijsMin")).Ok? && FloatOr0(Get(cl, "PrijsMax")).Ok?
      && FloatOr0(Get(cl, "WoonVertrekkenTotOppMin")).Ok? && FloatOr0(Get(cl, "WoonVertrekkenTotOppMax")).Ok?
      && IntOr0(Get(cl, "AantalKamersMin")).Ok? && IntOr0(Get(cl, "AantalKamersMax")).Ok?
    ensures var r := UnifyCluster(item, cl, cid, pageUrl);
      r.Ok? ==>
      var f := r.value.figures;
      && f.ClusterFigures?
      && FloatOr0(Get(cl, "PrijsMin")) == Ok(Bounds(f.rentSpan).0)
      && FloatOr0(Get(cl, "PrijsMax")) == Ok(Bounds(f.rentSpan).1)
      && FloatOr0(Get(cl, "WoonVertrekkenTotOppMin")) == Ok(Bounds(f.areaSpan).0)
      && FloatOr0(Get(cl, "WoonVertrekkenTotOppMax")) == Ok(Bounds(f.areaSpan).1)
      && IntOr0(Get(cl, "AantalKamersMin")) == Ok(Bounds(f.roomsSpan).0)
      && IntOr0(Get(cl, "AantalKamersMax")) == Ok(Bounds(f.roomsSpan).1)
      && (f.rentSpan.Scalar? <==> Bounds(f.rentSpan).0 == Bounds(f.rentSpan).1)
      && (f.areaSpan.Scalar? <==> Bounds(f.areaSpan).0 == Bounds(f.areaSpan).1)
      && (f.roomsSpan.Scalar? <==> Bounds(f.roomsSpan).0 == Bounds(f.roomsSpan).1)
      && r.value.adres == Get(cl, "Naam", Text(""))
  {
  }

  /** The unit's address: the stripped street name, a space and the house
      number, stripped again. */
  function JoinAddress(street: string, number: string): (a: string)
    ensures |a| > 0 ==> !Strings.IsSpace(a[0]) && !Strings.IsSpace(a[|a| - 1])
  {
    Strings.Strip(Strings.Strip(street) + " " + number)
  }

  /** How the address reads: the stripped street, one space and the house
      number with its trailing whitespace cut (leading whitespace kept) when
      both have text; the stripped street alone when the number is blank;
      the stripped number alone when the street is blank. */
  lemma JoinAddressShape(street: string, number: string)
    ensures var s := Strings.Strip(street);
      s != "" && Strings.Strip(number) != "" ==>
      JoinAddress(street, number) == s + " " + number[..Strings.StripSpan(number).1]
    ensures Strings.Strip(number) == "" ==> JoinAddress(street, number) == Strings.Strip(street)
    ensures Strings.Strip(street) == "" ==> JoinAddress(street, number) == Strings.Strip(number)
  {
    var s := Strings.Strip(street);
    if s != "" && Strings.Strip(number) != "" {
      StripJoinedBoth(s, number);
    } else if s != "" {
      StripJoinedBlankNumber(s, number);
    } else {
      assert s + " " + number == [' '] + number;
      Strings.StripLeadingSpace(' ', number);
    }
  }

  /** A non-blank stripped street and a number with text: only the number's
      trailing whitespace goes. */
  lemma StripJoinedBoth(s: string, number: string)
    requires s != "" && !Strings.IsSpace(s[0]) && !Strings.IsSpace(s[|s| - 1])
    requires Strings.Strip(number) != ""
    ensures Strings.Strip(s + " " + number) == s + " " + number[..Strings.StripSpan(number).1]
  {
    var joined := s + " " + number;
    var n := Strings.StripSpan(number);
    var hi := |s| + 1 + n.1;
    assert forall i :: hi <= i < |joined| ==> joined[i] == number[i - |s| - 1];
    assert joined[hi - 1] == number[n.1 - 1];
    Strings.StripExact(joined, 0, hi);
    assert joined[..hi] == s + " " + number[..n.1];
  }

  /** A non-blank stripped street and a blank number: the street alone. */
  lemma StripJoinedBlankNumber(s: string, number: string)
    requires s != "" && !Strings.IsSpace(s[0]) && !Strings.IsSpace(s[|s| - 1])
    requires Strings.Strip(number) == ""
    ensures Strings.Strip(s + " " + number) == s
  {
    var joined := s + " " + number;
    var n := Strings.StripSpan(number);
    assert n.0 == n.1;
    assert forall i :: 0 <= i < |number| ==> Strings.IsSpace(number[i]);
    assert forall i :: |s| + 1 <= i < |joined| ==> joined[i] == number[i - |s| - 1];
    Strings.StripExact(joined, 0, |s|);
    assert joined[..|s|] == s;
  }

  /** A unit's identifier, `str(EntiteitId or Id or '')`: the unit's
      `EntiteitId` printed, else the record's `Id` printed, else empty. */
  function UnitId(item: Dict, eu: Dict): (id: string)
    ensures Truthy(Get(eu, "EntiteitId")) ==> id == Str(Get(eu, "EntiteitId"))
    ensures !Truthy(Get(eu, "EntiteitId")) && Truthy(Get(item, "Id")) ==> id == Str(Get(item, "Id"))
    ensures !Truthy(Get(eu, "EntiteitId")) && !Truthy(Get(item, "Id")) ==> id == ""
  {
    Str(Or(Or(Get(eu, "EntiteitId"), Get(item, "Id")), Text("")))
  }

  /** The unit branch of `unify_item`. The fields are described by
      `UnifyUnitFields`. */
  function UnifyUnit(item: Dict, pageUrl: string): (r: Result<Listing, PyError>)
    ensures DictOr(Get(item, "Eenheid")).Err? ==> r == Err(AttributeError)
    ensures DictOr(Get(item, "Adres")).Err? ==> r.Err?
    ensures !Get(AdresOf(item), "Straatnaam", Text("")).Text? ==> r.Err?
    ensures r.Ok? <==>
      && DictOr(Get(item, "Eenheid")).Ok?
      && FloatOr0(Get(EenheidOf(item), "NettoHuur")).Ok?
      && FloatOr0(Get(EenheidOf(item), "WoonVertrekkenTotOpp")).Ok?
      && IntOr0(Get(EenheidOf(item), "AantalKamers")).Ok?
      && DictOr(Get(item, "Adres")).Ok?
      && Get(AdresOf(item), "Straatnaam", Text("")).Text?
    ensures r.Ok? ==> !r.value.IsCluster() && Carried(r.value, item, pageUrl)
  {
    var eu :- DictOr(Get(item, "Eenheid"));
    var uid := UnitId(item, eu);
    var price :- FloatOr0(Get(eu, "NettoHuur"));
    var opp :- FloatOr0(Get(eu, "WoonVertrekkenTotOpp"));
    var rooms :- IntOr0(Get(eu, "AantalKamers"));
    var ad :- DictOr(Get(item, "Adres"));
    var street := Get(ad, "Straatnaam", Text(""));
    if !street.Text? then
      Err(AttributeError)
    else
      var adres := JoinAddress(street.s, Str(Get(ad, "Huisnummer", Text(""))));
      Ok(Listing(uid, Text(adres), UnitFigures(price, opp, rooms), DetailUrl(pageUrl, uid), Get(item, "Foto_Locatie"), item))
  }

  /** A unit's rent, area and rooms are the unit's own fields, 0 when
      missing or falsy. */
  lemma UnifyUnitFigures(item: Dict, pageUrl: string, l: Listing)
    requires UnifyUnit(item, pageUrl) == Ok(l)
    ensures var eu := EenheidOf(item);
      l.figures == UnitFigures(FloatOr0(Get(eu, "NettoHuur")).value,
                               FloatOr0(Get(eu, "WoonVertrekkenTotOpp")).value,
                               IntOr0(Get(eu, "AantalKamers")).value)
    ensures var eu := EenheidOf(item);
      FloatOr0(Get(eu, "NettoHuur")).Ok? && FloatOr0(Get(eu, "WoonVertrekkenTotOpp")).Ok? && IntOr0(Get(eu, "AantalKamers")).Ok?
  {
    var eu := EenheidOf(item);
    assert DictOr(Get(item, "Eenheid")) == Ok(eu);
  }

  /** A unit's identifier is its `EntiteitId`, else the record's `Id`, else
      empty (`UnitId`); its address joins street name and house number. */
  lemma UnifyUnitFields(item: Dict, pageUrl: string, l: Listing)
    requires UnifyUnit(item, pageUrl) == Ok(l)
    ensures l.id == UnitId(item, EenheidOf(item))
    ensures l.adres == Text(JoinAddress(Get(AdresOf(item), "Straatnaam", Text("")).s,
                                        Str(Get(AdresOf(item), "Huisnummer", Text("")))))
  {
    var eu := EenheidOf(item);
    var ad := AdresOf(item);
    assert DictOr(Get(item, "Eenheid")) == Ok(eu);
    assert DictOr(Get(item, "Adres")) == Ok(ad);
    assert Get(ad, "Straatnaam", Text("")).Text?;
  }


  /** `unify_item`: one raw record to one listing, or the exception the
      source raises on it. The branch is chosen by the cluster
      `PublicatieId`; a cluster's identifier is that id printed, which is
      never empty and never `0`. */
  function UnifyItem(item: Dict, pageUrl: string): (r: Result<Listing, PyError>)
    ensures DictOr(Get(item, "Cluster")).Err? ==> r == Err(AttributeError)
    ensures r.Ok? ==> Carried(r.value, item, pageUrl)
    ensures r.Ok? ==> (r.value.IsCluster() <==> IsClusterRecord(item))
    ensures r.Ok? && IsClusterRecord(item) ==>
      r.value.id == Str(Get(ClusterOf(item), "PublicatieId")) && r.value.id != "" && r.value.id != "0"
    ensures IsClusterRecord(item) && DictOr(Get(item, "Cluster")).Ok? ==>
      r == UnifyCluster(item, ClusterOf(item), Str(Get(ClusterOf(item), "PublicatieId")), pageUrl)
    ensures !IsClusterRecord(item) && DictOr(Get(item, "Cluster")).Ok? ==> r == UnifyUnit(item, pageUrl)
  {
    var cl :- DictOr(Get(item, "Cluster"));
    var pub := Get(cl, "PublicatieId");
    if Truthy(pub) && Str(pub) != "0" then
      TruthyStrNonEmpty(pub);
      UnifyCluster(item, cl, Str(pub), pageUrl)
    else
      UnifyUnit(item, pageUrl)
  }

  /** A sub-record field the normaliser reads as a dict: absent, falsy or a
      dict. */
  predicate DictLike(v: Val) {
    !Truthy(v) || v.Obj?
  }

  /** The shape the portal's records have: sub-records are dicts, the numeric
      fields hold numbers or `null`, the street name is text. */
  predicate WellTyped(item: Dict) {
    var cl := ClusterOf(item);
    var eu := EenheidOf(item);
    && DictLike(Get(item, "Cluster")) && DictLike(Get(item, "Eenheid")) && DictLike(Get(item, "Adres"))
    && NumberLike(Get(cl, "PrijsMin")) && NumberLike(Get(cl, "PrijsMax"))
    && NumberLike(Get(cl, "WoonVertrekkenTotOppMin")) && NumberLike(Get(cl, "WoonVertrekkenTotOppMax"))
    && NumberLike(Get(cl, "AantalKamersMin")) && NumberLike(Get(cl, "AantalKamersMax"))
    && NumberLike(Get(eu, "NettoHuur")) && NumberLike(Get(eu, "WoonVertrekkenTotOpp"))
    && NumberLike(Get(eu, "AantalKamers"))
    && Get(AdresOf(item), "Straatnaam", Text("")).Text?
  }

  /** A well-typed record always normalises, whichever branch it takes. */
  lemma UnifyWellTyped(item: Dict, pageUrl: string)
    requires WellTyped(item)
    ensures UnifyItem(item, pageUrl).Ok?
  {
    var cl := ClusterOf(item);
    var eu := EenheidOf(item);
    NumberLikeCoerces(Get(cl, "PrijsMin"));
    NumberLikeCoerces(Get(cl, "PrijsMax"));
    NumberLikeCoerces(Get(cl, "WoonVertrekkenTotOppMin"));
    NumberLikeCoerces(Get(cl, "WoonVertrekkenTotOppMax"));
    NumberLikeCoerces(Get(cl, "AantalKamersMin"));
    NumberLikeCoerces(Get(cl, "AantalKamersMax"));
    NumberLikeCoerces(Get(eu, "NettoHuur"));
    NumberLikeCoerces(Get(eu, "WoonVertrekkenTotOpp"));
    NumberLikeCoerces(Get(eu, "AantalKamers"));
  }

  /** The dict elements of a raw list, in order (`isinstance(it, dict)`):
      every dict element's fields appear, nothing else does, and with
      `DictElementsAppend` the order of the list is kept. */
  function DictElements(raw: seq<Val>): (ds: seq<Dict>)
    ensures |ds| <= |raw|
    ensures forall k :: 0 <= k < |raw| && raw[k].Obj? ==> raw[k].fields in ds
    ensures forall i :: 0 <= i < |ds| ==> Obj(ds[i]) in raw
    ensures |raw| == 1 ==> ds == (if raw[0].Obj? then [raw[0].fields] else [])
    decreases |raw|
  {
    if |raw| == 0 then []
    else
      assert forall k :: 1 <= k < |raw| ==> raw[k] == raw[1..][k - 1];
      (if raw[0].Obj? then [raw[0].fields] else []) + DictElements(raw[1..])
  }

  /** The dict elements of a concatenation are those of each part, in
      order. */
  lemma {:induction false} DictElementsAppend(a: seq<Val>, b: seq<Val>)
    ensures DictElements(a + b) == DictElements(a) + DictElements(b)
    decreases |a|
  {
    if |a| == 0 {
      assert a + b == b;
    } else {
      assert (a + b)[0] == a[0];
      assert (a + b)[1..] == a[1..] + b;
      DictElementsAppend(a[1..], b);
    }
  }

  /** `f` applied to each dict in order, stopping at the first exception:
      one result per dict, or the exception of the first dict that raises. */
  function CollectAll<T>(ds: seq<Dict>, f: Dict -> Result<T, PyError>): (r: Result<seq<T>, PyError>)
    ensures r.Ok? <==> forall k :: 0 <= k < |ds| ==> f(ds[k]).Ok?
    ensures r.Ok? ==> |r.value| == |ds| && forall k :: 0 <= k < |ds| ==> f(ds[k]) == Ok(r.value[k])
    ensures r.Err? ==> exists k :: 0 <= k < |ds| && f(ds[k]) == Err(r.error)
                                   && forall j :: 0 <= j < k ==> f(ds[j]).Ok?
    decreases |ds|
  {
    if |ds| == 0 then
      Ok([])
    else
      assert forall k :: 1 <= k < |ds| ==> ds[k] == ds[1..][k - 1];
      match f(ds[0])
      case Err(e) => Err(e)
      case Ok(first) =>
        match CollectAll(ds[1..], f)
        case Err(e) =>
          var k :| 0 <= k < |ds[1..]| && f(ds[1..][k]) == Err(e)
                   && forall j :: 0 <= j < k ==> f(ds[1..][j]).Ok?;
          assert f(ds[k + 1]) == Err(e);
          Err(e)
        case Ok(rest) => Ok([first] + rest)
  }

  /** The list comprehension of `fetch_aanbod`, with `unify_item` applied
      to each dict element: one listing per dict element when none raises,
      otherwise the exception of some dict element. */
  function UnifyAll(raw: seq<Val>, pageUrl: string): (r: Result<seq<Listing>, PyError>)
    ensures r.Ok? ==> |r.value| == |DictElements(raw)|
    ensures r.Ok? ==> forall k :: 0 <= k < |r.value| ==> UnifyItem(DictElements(raw)[k], pageUrl) == Ok(r.value[k])
    ensures r.Ok? <==> forall k :: 0 <= k < |raw| && raw[k].Obj? ==> UnifyItem(raw[k].fields, pageUrl).Ok?
    ensures r.Err? ==> exists k :: 0 <= k < |raw| && raw[k].Obj? && UnifyItem(raw[k].fields, pageUrl) == Err(r.error)
  {
    var f := item => UnifyItem(item, pageUrl);
    CollectDictElements(raw, f);
    CollectAll(DictElements(raw), f)
  }

  /** `CollectAll` over the dict elements of a raw list succeeds exactly
      when `f` succeeds on every dict element, and an exception it returns
      is one `f` raises on some dict element. */
  lemma CollectDictElements<T>(raw: seq<Val>, f: Dict -> Result<T, PyError>)
    ensures var r := CollectAll(DictElements(raw), f);
      r.Ok? <==> forall k :: 0 <= k < |raw| && raw[k].Obj? ==> f(raw[k].fields).Ok?
    ensures var r := CollectAll(DictElements(raw), f);
      r.Err? ==> exists k :: 0 <= k < |raw| && raw[k].Obj? && f(raw[k].fields) == Err(r.error)
  {
    var ds := DictElements(raw);
    var r := CollectAll(ds, f);
    if r.Ok? {
      forall k | 0 <= k < |raw| && raw[k].Obj?
        ensures f(raw[k].fields).Ok?
      {
        var i :| 0 <= i < |ds| && ds[i] == raw[k].fields;
      }
    } else {
      var i :| 0 <= i < |ds| && f(ds[i]) == Err(r.error) && forall j :: 0 <= j < i ==> f(ds[j]).Ok?;
      assert Obj(ds[i]) in raw;
      var k :| 0 <= k < |raw| && raw[k] == Obj(ds[i]);
      assert raw[k].fields == ds[i];
    }
  }

  /** The comprehension over a concatenation: the first part's exception if
      it raises, else the second part's, else the two results joined. */
  lemma UnifyAllAppend(a: seq<Val>, b: seq<Val>, pageUrl: string)
    ensures UnifyAll(a + b, pageUrl) ==
      match UnifyAll(a, pageUrl)
      case Err(e) => Err(e)
      case Ok(la) => match UnifyAll(b, pageUrl)
        case Err(e) => Err(e)
        case Ok(lb) => Ok(la + lb)
  {
    DictElementsAppend(a, b);
    CollectAllAppend(DictElements(a), DictElements(b), item => UnifyItem(item, pageUrl));
  }

  /** `CollectAll` over a concatenation. */
  lemma {:induction false} CollectAllAppend<T>(a: seq<Dict>, b: seq<Dict>, f: Dict -> Result<T, PyError>)
    ensures CollectAll(a + b, f) ==
      match CollectAll(a, f)
      case Err(e) => Err(e)
      case Ok(la) => match CollectAll(b, f)
        case Err(e) => Err(e)
        case Ok(lb) => Ok(la + lb)
    decreases |a|
  {
    if |a| == 0 {
      assert a + b == b;
      assert CollectAll(a, f) == Ok([]);
      if CollectAll(b, f).Ok? {
        assert [] + CollectAll(b, f).value == CollectAll(b, f).value;
      }
    } else {
      assert (a + b)[0] == a[0];
      assert (a + b)[1..] == a[1..] + b;
      CollectAllAppend(a[1..], b, f);
      if f(a[0]).Ok? && CollectAll(a[1..], f).Ok? && CollectAll(b, f).Ok? {
        var x, la, lb := f(a[0]).value, CollectAll(a[1..], f).value, CollectAll(b, f).value;
        assert CollectAll(a + b, f) == Ok([x] + (la + lb));
        assert [x] + (la + lb) == ([x] + la) + lb;
      }
    }
  }

  /** The body of the feed response. */
  datatype Body = Json(data: Val) | NotJson

  /** The outcome of the feed POST. A transport error or a 4xx/5xx status
      (`raise_for_status`) is `TransportFailure`; any other status delivers
      its body. */
  datatype HttpOutcome = TransportFailure | Delivered(body: Body)

  /** What `for it in v` yields, as far as the dict filter is concerned:
      a list yields its elements, a string its one-character strings, a dict
      its keys (strings, so never dicts); anything else is not iterable. */
  function ListElements(v: Val): (r: Result<seq<Val>, PyError>)
    ensures v.Arr? ==> r == Ok(v.items)
    ensures r.Ok? && !v.Arr? ==> DictElements(r.value) == []
    ensures r.Err? <==> v.Null? || v.Bool? || v.Int? || v.Num?
  {
    match v
    case Arr(xs) => Ok(xs)
    case Text(s) =>
      var chars := seq(|s|, k requires 0 <= k < |s| => Text([s[k]]));
      assert DictElements(chars) == [] by {
        NoDictElements(chars);
      }
      Ok(chars)
    case Obj(_) => Ok([])
    case _ => Err(TypeError)
  }

  /** A list of strings has no dict elements. */
  lemma {:induction false} NoDictElements(xs: seq<Val>)
    requires forall k :: 0 <= k < |xs| ==> xs[k].Text?
    ensures DictElements(xs) == []
    decreases |xs|
  {
    if |xs| > 0 {
      NoDictElements(xs[1..]);
    }
  }

  /** A decoded body that holds a list at `data.PublicatieLijst.List`,
      whatever other keys it has at any level. */
  predicate HasFeedList(body: Val) {
    && body.Obj? && "data" in body.fields
    && var d := body.fields["data"];
    && d.Obj? && "PublicatieLijst" in d.fields
    && var p := d.fields["PublicatieLijst"];
    && p.Obj? && "List" in p.fields && p.fields["List"].Arr?
  }

  /** The list a feed body holds at `data.PublicatieLijst.List`. */
  function FeedList(body: Val): seq<Val>
    requires HasFeedList(body)
  {
    body.fields["data"].fields["PublicatieLijst"].fields["List"].items
  }

  /** `fetch_aanbod` after the POST: an HTTP failure is logged and yields no
      listings; otherwise the list at `data.PublicatieLijst.List` is
      normalised, a missing key on the path reading as an empty dict or
      list, and a string or dict in place of the list holding no records.
      Exceptions after the POST (a body that is not JSON, a non-dict
      on the path, a failing record) propagate to the caller. */
  function FetchAanbod(http: HttpOutcome, pageUrl: string): (r: Result<seq<Listing>, PyError>)
    ensures http.TransportFailure? ==> r == Ok([])
    ensures http == Delivered(NotJson) ==> r.Err?
    ensures http.Delivered? && http.body.Json? && !http.body.data.Obj? ==> r == Err(AttributeError)
    ensures http.Delivered? && http.body.Json? && http.body.data.Obj? && "data" !in http.body.data.fields ==> r == Ok([])
    ensures http.Delivered? && http.body.Json? && HasFeedList(http.body.data) ==>
      r == UnifyAll(FeedList(http.body.data), pageUrl)
    ensures http.Delivered? && http.body.Json? && http.body.data.Obj? ==>
      var d := Get(http.body.data.fields, "data", Obj(map[]));
      && (!d.Obj? ==> r == Err(AttributeError))
      && (d.Obj? && "PublicatieLijst" !in d.fields ==> r == Ok([]))
      && (d.Obj? ==>
            var p := Get(d.fields, "PublicatieLijst", Obj(map[]));
            && (!p.Obj? ==> r == Err(AttributeError))
            && (p.Obj? && "List" !in p.fields ==> r == Ok([]))
            && (p.Obj? ==>
                  var l := Get(p.fields, "List", Arr([]));
                  && (l.Null? || l.Bool? || l.Int? || l.Num? ==> r == Err(TypeError))
                  && (l.Text? || l.Obj? ==> r == Ok([]))
                  && (l.Arr? ==> r == UnifyAll(l.items, pageUrl))))
    ensures r.Ok? ==> forall k :: 0 <= k < |r.value| ==> r.value[k].detailUrl == DetailUrl(pageUrl, r.value[k].id)
  {
    match http
    case TransportFailure => Ok([])
    case Delivered(NotJson) => Err(ValueError)
    case Delivered(Json(data)) =>
      var top :- AsDict(data);
      var inner :- AsDict(Get(top, "data", Obj(map[])));
      var lijst :- AsDict(Get(inner, "PublicatieLijst", Obj(map[])));
      var elems :- ListElements(Get(lijst, "List", Arr([])));
      UnifyAll(elems, pageUrl)
  }
}

=== FILE: python.dfy ===
/** Python's dynamic values as they arrive from a decoded JSON feed, and the
    built-in coercions the normaliser applies to them: truthiness, `or`,
    `dict.get`, `str(...)`, `float(...)` and `int(...)`. A coercion that raises
    in Python yields `Err` here. */
module Py {
  import opened Results
  import Strings

  /** A decoded JSON value. `Num` is a JSON number with a fractional part or
      exponent (a Python `float`), `Int` one without (a Python `int`). */
  datatype Val =
    | Null
    | Bool(b: bool)
    | Int(i: int)
    | Num(x: real)
    | Text(s: string)
    | Obj(fields: map<string, Val>)
    | Arr(items: seq<Val>)

  /** The exceptions the normaliser and the fetcher can raise. */
  datatype PyError = AttributeError | TypeError | ValueError

  type Dict = map<string, Val>

  /** Python truthiness: `None`, `False`, zero and empty containers are falsy. */
  predicate Truthy(v: Val) {
    match v
    case Null => false
    case Bool(b) => b
    case Int(i) => i != 0
    case Num(x) => x != 0.0
    case Text(s) => |s| > 0
    case Obj(m) => |m| > 0
    case Arr(xs) => |xs| > 0
  }

  /** Python's `a or b`. */
  function Or(a: Val, b: Val): Val {
    if Truthy(a) then a else b
  }

  /** Python's `d.get(key, default)`; `d.get(key)` passes `Null` (`None`). */
  function Get(d: Dict, key: string, default: Val := Null): Val {
    if key in d then d[key] else default
  }

  /** `(v or {})` used as a dictionary: a falsy value stands for the empty
      dict, a dict is itself, and any other truthy value raises
      `AttributeError` at the first `.get` on it. */
  function DictOr(v: Val): (r: Result<Dict, PyError>)
    ensures !Truthy(v) ==> r == Ok(map[])
    ensures v.Obj? ==> r == Ok(v.fields)
    ensures r.Err? <==> Truthy(v) && !v.Obj?
  {
    if !Truthy(v) then Ok(map[])
    else if v.Obj? then Ok(v.fields)
    else Err(AttributeError)
  }

  /** A value `v` with `v.get(...)` available: it must be a dict itself. */
  function AsDict(v: Val): (r: Result<Dict, PyError>)
    ensures r.Ok? <==> v.Obj?
  {
    if v.Obj? then Ok(v.fields) else Err(AttributeError)
  }

  /** Stand-in for the rendering of a float with a fraction, a dict or a list. */
  const Unrendered: string := "<value>"

  /** Python's `str(v)` (also what an f-string inserts). */
  function Str(v: Val): string {
    match v
    case Null => "None"
    case Bool(b) => if b then "True" else "False"
    case Int(i) => Strings.IntToString(i)
    case Num(x) =>
      if x == x.Floor as real && -10000000000000000.0 < x < 10000000000000000.0
      then Strings.IntToString(x.Floor) + ".0"
      else Unrendered
    case Text(s) => s
    case Obj(_) => Unrendered
    case Arr(_) => Unrendered
  }

  /** Python's `float(v)`. */
  function ToFloat(v: Val): (r: Result<real, PyError>)
    ensures v.Int? ==> r == Ok(v.i as real)
    ensures v.Num? ==> r == Ok(v.x)
    ensures v.Bool? ==> r == Ok(if v.b then 1.0 else 0.0)
    ensures v.Text? ==> (r.Ok? <==> Strings.ParseDecimal(v.s).Some?)
    ensures v.Text? && r.Err? ==> r.error == ValueError
    ensures v.Null? || v.Obj? || v.Arr? ==> r == Err(TypeError)
  {
    match v
    case Null => Err(TypeError)
    case Bool(b) => Ok(if b then 1.0 else 0.0)
    case Int(i) => Ok(i as real)
    case Num(x) => Ok(x)
    case Text(s) =>
      (match Strings.ParseDecimal(s)
       case Some(x) => Ok(x)
       case None => Err(ValueError))
    case Obj(_) => Err(TypeError)
    case Arr(_) => Err(TypeError)
  }

  /** Python's `int(x)` on a float: truncation toward zero. */
  function Truncate(x: real): (n: int)
    ensures x >= 0.0 ==> n as real <= x < n as real + 1.0
    ensures x < 0.0 ==> n as real - 1.0 < x <= n as real
  {
    if x >= 0.0 then x.Floor else -((-x).Floor)
  }

  /** Python's `int(v)`. */
  function ToInt(v: Val): (r: Result<int, PyError>)
    ensures v.Int? ==> r == Ok(v.i)
    ensures v.Num? && v.x >= 0.0 ==> r.Ok? && r.value as real <= v.x < r.value as real + 1.0
    ensures v.Num? && v.x < 0.0 ==> r.Ok? && r.value as real - 1.0 < v.x <= r.value as real
    ensures v.Bool? ==> r == Ok(if v.b then 1 else 0)
    ensures v.Text? ==> (r.Ok? <==> Strings.ParseInt(v.s).Some?)
    ensures v.Text? && r.Ok? ==> Strings.ParseInt(v.s) == Some(r.value)
    ensures v.Text? && r.Err? ==> r.error == ValueError
    ensures v.Null? || v.Obj? || v.Arr? ==> r == Err(TypeError)
  {
    match v
    case Null => Err(TypeError)
    case Bool(b) => Ok(if b then 1 else 0)
    case Int(i) => Ok(i)
    case Num(x) => Ok(Truncate(x))
    case Text(s) =>
      (match Strings.ParseInt(s)
       case Some(n) => Ok(n)
       case None => Err(ValueError))
    case Obj(_) => Err(TypeError)
    case Arr(_) => Err(TypeError)
  }

  /** `float(v or 0)`: a missing or falsy field reads as `0.0`. */
  function FloatOr0(v: Val): (r: Result<real, PyError>)
    ensures !Truthy(v) ==> r == Ok(0.0)
    ensures Truthy(v) ==> r == ToFloat(v)
  {
    ToFloat(Or(v, Int(0)))
  }

  /** `int(v or 0)`: a missing or falsy field reads as `0`. */
  function IntOr0(v: Val): (r: Result<int, PyError>)
    ensures !Truthy(v) ==> r == Ok(0)
    ensures Truthy(v) ==> r == ToInt(v)
  {
    ToInt(Or(v, Int(0)))
  }

  /** A value `float(v or 0)` and `int(v or 0)` accept without raising. */
  predicate NumberLike(v: Val) {
    v.Null? || v.Bool? || v.Int? || v.Num?
  }

  /** Numbers and `None` always coerce. */
  lemma NumberLikeCoerces(v: Val)
    requires NumberLike(v)
    ensures FloatOr0(v).Ok? && IntOr0(v).Ok?
  {
  }
}

=== FILE: reaction.dfy ===
/** The reaction driver's retry policy: `scroll_to_reageer_button` looks for
    the apply button one viewport at a time for a bounded number of tries,
    then waits once more; `wait_and_click_reageer` clicks it and, when an
    overlay intercepts the click, clears the overlays and clicks once more.
    The browser is reduced to what these decisions observe. */
module Reaction {
  import opened Results

  /** The default `max_tries` of the scroll search. */
  const MaxTries: nat := 12

  /** What one lookup of the apply button observes: not in the page, in the
      page but not displayed, displayed but not clickable within the wait,
      or displayed and clickable. Only the last one ends the search. */
  datatype Sighting = Absent | NotDisplayed | NotClickable | Ready

  /** How a click on the button ends: it lands, an overlay intercepts it, or
      it raises some other exception. */
  datatype ClickOutcome = Clicked | Intercepted | Failed

  /** The detail page as the driver meets it: `see(i)` is the sighting of
      the lookup after `i` scrolls, `finalWait` whether the last wait for a
      clickable button succeeds, and the outcomes of the first click and of
      the retry after overlays are cleared. */
  datatype Page = Page(
    see: nat -> Sighting,
    finalWait: bool,
    firstClick: ClickOutcome,
    retryClick: ClickOutcome)

  /** Where the button was obtained: at a scroll try, by the final wait, or
      not at all (`None`). */
  datatype Button = AtTry(n: nat) | AfterFinalWait | Missing

  /** The search's answer together with the viewport scrolls it made. */
  datatype Search = Search(button: Button, scrolls: nat)

  /** The sightings of the tries in `[from, from + count)`, in order. */
  function Window(see: nat -> Sighting, from: nat, count: nat): (w: seq<Sighting>)
    ensures |w| == count
    ensures forall k :: 0 <= k < count ==> w[k] == see(from + k)
  {
    seq(count, (k: nat) => see(from + k))
  }

  /** The first try in `[from, from + count)` whose lookup finds the button
      ready; the reference the scroll loop is measured against. */
  function FirstReady(see: nat -> Sighting, from: nat, count: nat): (r: Option<nat>)
    ensures r.Some? ==> from <= r.value < from + count && see(r.value) == Ready
    ensures r.Some? ==> forall j :: from <= j < r.value ==> see(j) != Ready
    ensures r.None? <==> forall j :: from <= j < from + count ==> see(j) != Ready
  {
    var w := Window(see, from, count);
    match FirstWhere(w, s => s == Ready)
    case None =>
      assert forall j :: from <= j < from + count ==> see(j) == w[j - from];
      None
    case Some(i) =>
      assert forall j :: from <= j < from + i ==> see(j) == w[j - from];
      Some(from + i)
  }

  /** The loop of `scroll_to_reageer_button` from try `from` with `left`
      tries remaining: each try that does not find the button ready scrolls
      one viewport further; when the tries are used up the final wait
      decides. */
  function ScrollFrom(page: Page, from: nat, left: nat): (r: Search)
    ensures r.button.AtTry? ==> from <= r.button.n < from + left && page.see(r.button.n) == Ready
    ensures r.button.AtTry? ==> forall j :: from <= j < r.button.n ==> page.see(j) != Ready
    ensures !r.button.AtTry? <==> forall j :: from <= j < from + left ==> page.see(j) != Ready
    ensures r.button.AfterFinalWait? <==> !r.button.AtTry? && page.finalWait
    ensures r.button.AtTry? ==> r.scrolls == r.button.n - from
    ensures !r.button.AtTry? ==> r.scrolls == left
    decreases left
  {
    if left == 0 then
      Search(if page.finalWait then AfterFinalWait else Missing, 0)
    else if page.see(from) == Ready then
      Search(AtTry(from), 0)
    else
      var rest := ScrollFrom(page, from + 1, left - 1);
      Search(rest.button, rest.scrolls + 1)
  }

  /** `scroll_to_reageer_button(driver, maxTries)`: the button is found at the
      first try that sees it ready, or else by the final wait, or not at all;
      it never scrolls more than `maxTries` times, so it makes at most
      `maxTries` lookups plus the final wait. */
  function ScrollToReageerButton(page: Page, maxTries: nat): (r: Search)
    ensures r.scrolls <= maxTries
    ensures FirstReady(page.see, 0, maxTries).Some? ==> r.button == AtTry(FirstReady(page.see, 0, maxTries).value)
    ensures FirstReady(page.see, 0, maxTries).None? ==> r.button == (if page.finalWait then AfterFinalWait else Missing)
    ensures r.button.AtTry? ==> r.scrolls == r.button.n
  {
    ScrollFrom(page, 0, maxTries)
  }

  /** What `wait_and_click_reageer` reports, with the clicks it attempted. */
  datatype ClickReport = ClickReport(success: bool, clicks: nat)

  /** `wait_and_click_reageer`: no button means failure without a click; a
      click that lands succeeds; an intercepted click is retried exactly
      once, after the overlays are cleared, and succeeds only if the retry
      lands; any other failure of the first click gives up at once. */
  function WaitAndClickReageer(page: Page): (r: ClickReport)
    ensures r.clicks <= 2
    ensures ScrollToReageerButton(page, MaxTries).button.Missing? ==> r == ClickReport(false, 0)
    ensures r.clicks == 0 <==> ScrollToReageerButton(page, MaxTries).button.Missing?
    ensures r.clicks == 2 <==> !ScrollToReageerButton(page, MaxTries).button.Missing? && page.firstClick == Intercepted
    ensures r.success <==>
      && !ScrollToReageerButton(page, MaxTries).button.Missing?
      && (page.firstClick == Clicked || (page.firstClick == Intercepted && page.retryClick == Clicked))
  {
    var found := ScrollToReageerButton(page, MaxTries);
    if found.button.Missing? then ClickReport(false, 0)
    else
      match page.firstClick
      case Clicked => ClickReport(true, 1)
      case Intercepted => ClickReport(page.retryClick == Clicked, 2)
      case Failed => ClickReport(false, 1)
  }

  /** The button is found, by some try or by the final wait, exactly when
      one of the twelve lookups sees it ready or the final wait succeeds. */
  lemma ButtonFoundIff(page: Page)
    ensures !ScrollToReageerButton(page, MaxTries).button.Missing? <==>
      (exists j :: 0 <= j < MaxTries && page.see(j) == Ready) || page.finalWait
  {
    var f := FirstReady(page.see, 0, MaxTries);
    if f.Some? {
      assert page.see(f.value) == Ready;
    }
  }
}

=== FILE: results.dfy ===
/** Failure-compatible wrappers used throughout the model: `Option` for values
    that may be missing, `Result` for computations that may raise; and the
    first-match search both the cookie parser and the button search use. */
module Results {

  datatype Option<+T> = None | Some(value: T)

  /** The outcome of a computation that either produces a value or raises. */
  datatype Result<+T, +E> = Ok(value: T) | Err(error: E) {

    predicate IsFailure() {
      Err?
    }

    function PropagateFailure<U>(): Result<U, E>
      requires Err?
    {
      Err(error)
    }

    function Extract(): T
      requires Ok?
    {
      value
    }
  }

  /** Index of the first element of `xs` satisfying `p`, if any. */
  function FirstWhere<T>(xs: seq<T>, p: T -> bool): (r: Option<nat>)
    ensures r.None? <==> forall i :: 0 <= i < |xs| ==> !p(xs[i])
    ensures r.Some? ==> r.value < |xs| && p(xs[r.value])
    ensures r.Some? ==> forall j :: 0 <= j < r.value ==> !p(xs[j])
    decreases |xs|
  {
    if |xs| == 0 then None
    else if p(xs[0]) then Some(0)
    else
      var rest := FirstWhere(xs[1..], p);
      assert forall k :: 1 <= k < |xs| ==> xs[k] == xs[1..][k - 1];
      match rest
      case None => None
      case Some(i) => Some(i + 1)
  }
}

=== FILE: strings.dfy ===
/** The handful of Python `str` operations the listing pipeline relies on:
    `strip`, `startswith`, `split(sep)`, `str(int)` and the decimal parsing
    done by `int(...)` and `float(...)` on text. */
module Strings {
  import opened Results

  /** Python's `str.isspace` for a single character. */
  predicate IsSpace(c: char) {
    || c == ' '
    || '\t' <= c <= '\r'
    || '\U{1C}' <= c <= '\U{1F}'
    || c == '\U{85}'
    || c == '\U{A0}'
    || c == '\U{1680}'
    || '\U{2000}' <= c <= '\U{200A}'
    || c == '\U{2028}'
    || c == '\U{2029}'
    || c == '\U{202F}'
    || c == '\U{205F}'
    || c == '\U{3000}'
  }

  /** Number of whitespace characters at the front of `s`. */
  function LeadingSpaces(s: string): (k: nat)
    ensures k <= |s|
    ensures forall i :: 0 <= i < k ==> IsSpace(s[i])
    ensures k < |s| ==> !IsSpace(s[k])
  {
    if |s| == 0 || !IsSpace(s[0]) then 0 else 1 + LeadingSpaces(s[1..])
  }

  /** Number of whitespace characters at the end of `s`. */
  function TrailingSpaces(s: string): (k: nat)
    ensures k <= |s|
    ensures forall i :: |s| - k <= i < |s| ==> IsSpace(s[i])
    ensures k < |s| ==> !IsSpace(s[|s| - k - 1])
  {
    if |s| == 0 || !IsSpace(s[|s| - 1]) then 0 else 1 + TrailingSpaces(s[..|s| - 1])
  }

  /** The slice `[lo, hi)` of `s` that `str.strip()` keeps: only whitespace is
      cut off on either side, and whatever remains starts and ends with a
      non-space character. */
  function StripSpan(s: string): (span: (nat, nat))
    ensures span.0 <= span.1 <= |s|
    ensures forall i :: 0 <= i < span.0 ==> IsSpace(s[i])
    ensures forall i :: span.1 <= i < |s| ==> IsSpace(s[i])
    ensures span.0 < span.1 ==> !IsSpace(s[span.0]) && !IsSpace(s[span.1 - 1])
  {
    var lo := LeadingSpaces(s);
    var hi := |s| - TrailingSpaces(s[lo..]);
    assert forall i :: hi <= i < |s| ==> s[i] == s[lo..][i - lo];
    (lo, hi)
  }

  /** Python's `s.strip()`. */
  function Strip(s: string): (r: string)
    ensures |r| <= |s|
    ensures r == s[StripSpan(s).0..StripSpan(s).1]
    ensures |r| > 0 ==> !IsSpace(r[0]) && !IsSpace(r[|r| - 1])
  {
    s[StripSpan(s).0..StripSpan(s).1]
  }

  /** A string that neither starts nor ends with whitespace is its own strip. */
  lemma StripUnpadded(s: string)
    requires |s| > 0 ==> !IsSpace(s[0]) && !IsSpace(s[|s| - 1])
    ensures Strip(s) == s
  {
    if |s| > 0 {
      assert !IsSpace(s[0]) && !IsSpace(s[|s| - 1]);
    }
  }

  /** `str.strip()` keeps exactly the slice `[lo, hi)` when only whitespace
      lies outside it and the slice is empty or starts and ends with a
      non-space character. */
  lemma StripExact(s: string, lo: nat, hi: nat)
    requires lo <= hi <= |s|
    requires forall i :: 0 <= i < lo ==> IsSpace(s[i])
    requires forall i :: hi <= i < |s| ==> IsSpace(s[i])
    requires lo < hi ==> !IsSpace(s[lo]) && !IsSpace(s[hi - 1])
    ensures Strip(s) == s[lo..hi]
  {
    var span := StripSpan(s);
    if lo < hi {
      assert span.0 <= lo by {
        if span.0 > lo { assert false; }
      }
      assert hi <= span.1 by {
        if span.1 < hi { assert false; }
      }
    } else if span.0 < span.1 {
      assert false;
    }
  }

  /** Prepending a whitespace character to `t` moves the slice `strip`
      keeps one position on, with only whitespace outside it. */
  lemma ConsStripBounds(c: char, t: string)
    requires IsSpace(c)
    ensures var n := StripSpan(t); var s := [c] + t;
      && 1 + n.0 <= 1 + n.1 <= |s|
      && (forall i :: 0 <= i < 1 + n.0 ==> IsSpace(s[i]))
      && (forall i :: 1 + n.1 <= i < |s| ==> IsSpace(s[i]))
      && (1 + n.0 < 1 + n.1 ==> !IsSpace(s[1 + n.0]) && !IsSpace(s[n.1]))
  {
  }

  /** A slice of `t` is the shifted slice of `[c] + t`. */
  lemma ConsSlice(c: char, t: string, lo: nat, hi: nat)
    requires lo <= hi <= |t|
    ensures ([c] + t)[1 + lo..1 + hi] == t[lo..hi]
  {
  }

  /** A leading whitespace character makes no difference to the strip. */
  lemma StripLeadingSpace(c: char, t: string)
    requires IsSpace(c)
    ensures Strip([c] + t) == Strip(t)
  {
    var n := StripSpan(t);
    ConsStripBounds(c, t);
    StripExact([c] + t, 1 + n.0, 1 + n.1);
    ConsSlice(c, t, n.0, n.1);
  }

  /** Stripping twice is stripping once. */
  lemma StripIdempotent(s: string)
    ensures Strip(Strip(s)) == Strip(s)
  {
    StripUnpadded(Strip(s));
  }

  /** Python's `s.startswith(prefix)`. */
  predicate StartsWith(s: string, prefix: string) {
    |prefix| <= |s| && s[..|prefix|] == prefix
  }

  /** `sep` occurs in `s` at position `j`. */
  predicate OccursAt(s: string, sep: string, j: nat) {
    j + |sep| <= |s| && s[j..j + |sep|] == sep
  }

  /** Python's `sep in s`. */
  predicate Contains(s: string, sep: string) {
    exists j: nat :: j <= |s| && OccursAt(s, sep, j)
  }

  /** Position of the first occurrence of `sep` in `s` at or after `from`. */
  function Find(s: string, sep: string, from: nat): (r: Option<nat>)
    requires from <= |s|
    ensures r.Some? ==> from <= r.value && OccursAt(s, sep, r.value)
    ensures r.Some? ==> forall j: nat :: from <= j < r.value ==> !OccursAt(s, sep, j)
    ensures r.None? ==> forall j: nat :: from <= j ==> !OccursAt(s, sep, j)
    decreases |s| - from
  {
    if OccursAt(s, sep, from) then Some(from)
    else if from == |s| then None
    else Find(s, sep, from + 1)
  }

  /** Joins `parts` with `sep` between consecutive parts (`sep.join(parts)`). */
  function Join(parts: seq<string>, sep: string): string
  {
    if |parts| == 0 then ""
    else if |parts| == 1 then parts[0]
    else parts[0] + sep + Join(parts[1..], sep)
  }

  /** An occurrence inside a prefix of `s` is an occurrence in `s`. */
  lemma OccursInPrefix(s: string, sep: string, i: nat, j: nat)
    requires i <= |s|
    requires OccursAt(s[..i], sep, j)
    ensures OccursAt(s, sep, j)
  {
    assert s[..i][j..j + |sep|] == s[j..j + |sep|];
  }

  /** Python's `s.split(sep)` for a non-empty separator: the pieces between
      successive leftmost non-overlapping occurrences of `sep`. Joining them
      back gives `s`, and no piece contains the separator. */
  function Split(s: string, sep: string): (parts: seq<string>)
    requires |sep| > 0
    ensures |parts| >= 1
    ensures Join(parts, sep) == s
    ensures forall k :: 0 <= k < |parts| ==> !Contains(parts[k], sep)
    decreases |s|
  {
    match Find(s, sep, 0)
    case None =>
      assert !Contains(s, sep);
      [s]
    case Some(i) =>
      var head := s[..i];
      var rest := Split(s[i + |sep|..], sep);
      assert !Contains(head, sep) by {
        forall j: nat | OccursAt(head, sep, j)
          ensures false
        {
          OccursInPrefix(s, sep, i, j);
        }
      }
      assert s == head + sep + s[i + |sep|..];
      [head] + rest
  }

  /** The text after the last occurrence of `sep` (Python's `s.split(sep)[-1]`). */
  function AfterLast(s: string, sep: string): (r: string)
    requires |sep| > 0
    ensures !Contains(r, sep)
    ensures !Contains(s, sep) ==> r == s
    ensures Contains(s, sep) ==> |sep| + |r| <= |s| && s[|s| - |r| - |sep|..] == sep + r
  {
    var parts := Split(s, sep);
    var r := parts[|parts| - 1];
    if |parts| == 1 then
      r
    else
      JoinLast(parts, sep);
      r
  }

  /** Splitting off the last part of a join. */
  lemma {:induction false} JoinLast(parts: seq<string>, sep: string)
    requires |parts| >= 2
    ensures Join(parts, sep) == Join(parts[..|parts| - 1], sep) + sep + parts[|parts| - 1]
    decreases |parts|
  {
    if |parts| == 2 {
      assert parts[..1] == [parts[0]];
    } else {
      JoinLast(parts[1..], sep);
      assert parts[1..][..|parts| - 2] == parts[..|parts| - 1][1..];
    }
  }

  // ---------------------------------------------------------------------
  // Decimal digits

  predicate IsDigit(c: char) {
    '0' <= c <= '9'
  }

  predicate AllDigits(s: string) {
    forall i :: 0 <= i < |s| ==> IsDigit(s[i])
  }

  function DigitValue(c: char): nat
    requires IsDigit(c)
  {
    c as int - '0' as int
  }

  function DigitChar(d: nat): (c: char)
    requires d < 10
    ensures IsDigit(c) && DigitValue(c) == d
  {
    ('0' as int + d) as char
  }

  /** The number a string of decimal digits denotes (most significant first). */
  function DigitsValue(s: string): nat
    requires AllDigits(s)
  {
    if |s| == 0 then 0 else DigitsValue(s[..|s| - 1]) * 10 + DigitValue(s[|s| - 1])
  }

  /** Decimal rendering of a natural number, without leading zeros. */
  function NatToString(n: nat): (s: string)
    ensures |s| >= 1 && AllDigits(s)
    ensures s[0] != '0' || n == 0
  {
    if n < 10 then [DigitChar(n)] else NatToString(n / 10) + [DigitChar(n % 10)]
  }

  /** Python's `str(n)` for an `int`. */
  function IntToString(n: int): (s: string)
    ensures |s| >= 1
    ensures n < 0 <==> s[0] == '-'
    ensures !IsSpace(s[0]) && !IsSpace(s[|s| - 1])
  {
    if n < 0 then "-" + NatToString(-n) else NatToString(n)
  }

  /** Reading back the digits `NatToString` writes gives the number. */
  lemma {:induction false} NatToStringRoundTrip(n: nat)
    ensures DigitsValue(NatToString(n)) == n
    decreases n
  {
    if n >= 10 {
      NatToStringRoundTrip(n / 10);
      var s := NatToString(n);
      assert s[..|s| - 1] == NatToString(n / 10);
    }
  }

  /** Splits an optional `+`/`-` sign off the front of `s`; the sign is `-1`
      or `1`. */
  function SplitSign(s: string): (r: (int, string))
    ensures r.0 == 1 || r.0 == -1
    ensures |r.1| <= |s|
  {
    if |s| > 0 && s[0] == '-' then (-1, s[1..])
    else if |s| > 0 && s[0] == '+' then (1, s[1..])
    else (1, s)
  }

  /** Python's `int(s)` on text: surrounding whitespace, an optional sign and
      at least one decimal digit; `None` where Python raises `ValueError`. */
  function ParseInt(s: string): (r: Option<int>)
    ensures r.Some? ==> exists k: nat :: k < |s| && IsDigit(s[k])
  {
    var t := Strip(s);
    var (sign, body) := SplitSign(t);
    if |body| > 0 && AllDigits(body) then
      assert IsDigit(s[StripSpan(s).0 + |t| - 1]) by {
        assert s[StripSpan(s).0 + |t| - 1] == t[|t| - 1] == body[|body| - 1];
      }
      Some(sign * DigitsValue(body))
    else
      None
  }

  /** `int(str(n)) == n`. */
  lemma IntToStringRoundTrip(n: int)
    ensures ParseInt(IntToString(n)) == Some(n)
  {
    var s := IntToString(n);
    StripUnpadded(s);
    var digits := if n < 0 then NatToString(-n) else NatToString(n);
    NatToStringRoundTrip(if n < 0 then -n else n);
    if n < 0 {
      assert SplitSign(s) == (-1, digits);
    } else {
      assert SplitSign(s) == (1, digits);
    }
  }

  function Pow10(k: nat): (p: nat)
    ensures p >= 1
  {
    if k == 0 then 1 else 10 * Pow10(k - 1)
  }

  /** `x` with the sign `SplitSign` found: negated for `-1`. */
  function Signed(sign: int, x: real): real {
    if sign < 0 then -x else x
  }

  /** The value of the digits after a decimal point. */
  function FractionValue(frac: string): real
    requires AllDigits(frac)
  {
    DigitsValue(frac) as real / Pow10(|frac|) as real
  }

  /** The unsigned part of a decimal literal, signed by `sign`: digits
      with at most one decimal point and at least one digit. The text after
      the first point must be all digits, so a second point is rejected. */
  function DecimalBody(sign: int, body: string): Option<real> {
    match Find(body, ".", 0)
    case None =>
      if |body| > 0 && AllDigits(body) then Some(Signed(sign, DigitsValue(body) as real)) else None
    case Some(i) =>
      var whole, frac := body[..i], body[i + 1..];
      if |whole| + |frac| > 0 && AllDigits(whole) && AllDigits(frac) then
        Some(Signed(sign, DigitsValue(whole) as real + FractionValue(frac)))
      else
        None
  }

  /** Python's `float(s)` on text written in plain positional notation:
      whitespace, an optional sign, digits with at most one decimal point,
      at least one digit overall. `None` where Python raises `ValueError`. */
  function ParseDecimal(s: string): (r: Option<real>)
  {
    var signed := SplitSign(Strip(s));
    DecimalBody(signed.0, signed.1)
  }

  /** A digit string contains no decimal point. */
  lemma DigitsHaveNoPoint(s: string)
    requires AllDigits(s)
    ensures !Contains(s, ".")
  {
    forall j: nat | j <= |s|
      ensures !OccursAt(s, ".", j)
    {
      if j + 1 <= |s| {
        assert s[j..j + 1][0] == s[j];
      }
    }
  }

  /** Digits without a point read as the number they denote. */
  lemma DecimalBodyDigits(sign: int, digits: string)
    requires |digits| > 0 && AllDigits(digits)
    ensures DecimalBody(sign, digits) == Some(Signed(sign, DigitsValue(digits) as real))
  {
    DigitsHaveNoPoint(digits);
    assert Find(digits, ".", 0).None?;
  }

  /** `float(str(n)) == n` for an integer `n`. */
  lemma IntToStringDecimalRoundTrip(n: int)
    ensures ParseDecimal(IntToString(n)) == Some(n as real)
  {
    var s := IntToString(n);
    StripUnpadded(s);
    var m: nat := if n < 0 then -n else n;
    var digits := NatToString(m);
    NatToStringRoundTrip(m);
    var sign := if n < 0 then -1 else 1;
    assert SplitSign(s) == (sign, digits);
    DecimalBodyDigits(sign, digits);
  }
}
